=== FILE: README.md ===
# CLIProxyAPI supervisor in Dafny

A Dafny model of the core of the TypeScript SDK that downloads, configures,
starts, watches and stops the CLIProxyAPI proxy binary, and runs its login
flows. The model covers the following:

- **Log line splitter** (`streamLines`): a fold over the chunks of a child's
  stdout or stderr. It is proved to agree with an independent reference
  that splits the whole text at its line feeds, so the result does not
  depend on how the text was chunked. The login flow's copy is modelled
  separately, as the imperative loops it runs, and is proved to make the
  same consumer calls.
- **Readiness wait** (`waitForReady`): the health-check defaults, the probe
  request with its headers, the HTTP status predicate and the bounded retry
  loop. The outcome of each probe attempt is an oracle.
- **`startProxy` and `stop`**: the port choice, the temporary config file,
  the binary lookup, the `starting` / `ready` / `exited` status events, the
  race between readiness and the child's exit, and the teardown. Each run
  is a list of effects plus a result.
- **`performLogin`**: the provider-to-flag table, the argument vector, the
  effects, and the outcome decided by the exit code.
- **Helpers**:
  - platform normalisation (`resolvePlatform`);
  - the release asset name and URL (`buildAssetInfo`), which can be read
    back into its parts;
  - the binary search (`findBinary`) as a depth-first search over a
    directory tree datatype;
  - the cache directory (`cacheDir`), with the environment as a map;
  - the port decision (`findOpenPort`), with port availability as an oracle.
- **Config document** (`buildConfigYaml`): the key/value document it builds
  before serialisation.

The modules are:

| module | file | models |
|---|---|---|
| `Wrappers`, `Seqs`, `Text`, `Paths` | `wrappers.dfy`, `seqs.dfy`, `text.dfy`, `paths.dfy` | option and result values; JavaScript string and `path` helpers (`trimEnd`, `indexOf`, `path.join`, `path.dirname`, `path.resolve`) |
| `LineSplitter` | `line_splitter.dfy` | `streamLines` and its reference splitting |
| `Readiness` | `readiness.dfy` | `waitForReady` |
| `ProxyConfig` | `config.dfy` | `buildConfigYaml` |
| `Platform` | `platform.dfy` | `resolvePlatform`, `buildAssetInfo` |
| `BinarySearch` | `binary_search.dfy` | `findBinary` |
| `CacheDir` | `cache_dir.dfy` | `cacheDir` |
| `Ports` | `ports.dfy` | `findOpenPort` |
| `Process` | `process.dfy` | effects, status events, exit events, temporary directories |
| `Runner` | `runner.dfy` | `startProxy`, `stop` |
| `Login` | `login.dfy` | `performLogin`, `providerFlag`, the login copy of `streamLines` |

Where the code behaves in a way one might not expect, the model follows the
code:

- When the child exits before it is ready, `startProxy` rejects without
  removing its temporary config directory. It also leaves the directory
  behind when the binary cannot be obtained, since the config is written
  first.
- When the probes run out, `startProxy` rejects but does not kill the child.
- A `binaryPath` of `""` is kept by `??`, and `spawn` then throws before any
  child exists. `startProxy` rejects right after reporting `starting`, and
  `performLogin` right after writing its config, in both cases without a
  wait and without cleaning up.
- Without a stream or without a log consumer, `streamLines` attaches no
  handler at all.
- The retry loop sleeps after every failed attempt, the last one included.
  It also treats a non-ready status and a thrown request alike.
- `resolvePlatform` maps Node's names, so the release's own `windows` and
  `386` names are not in its tables and fall back to `linux` and `amd64`.

## Model

| member | source | states |
|---|---|---|
| LineSplitter.Drain | ts-sdk/src/runner.ts:68-74 | the data handler's loop leaves a buffer without a line feed, and a buffer without one emits nothing |
| LineSplitter.FeedChunks | ts-sdk/src/runner.ts:67-75 | after any sequence of data events the carried buffer holds no line feed |
| LineSplitter.StreamLines | ts-sdk/src/runner.ts:59-81 | without a stream or a consumer nothing is emitted; every call carries the stream's source tag |
| LineSplitter.DrainIsSplit | ts-sdk/src/runner.ts:70-74 | the loop's lines are the trimmed line-feed-terminated pieces of the buffer, and its leftover is the unterminated last piece |
| LineSplitter.DrainAppend | ts-sdk/src/runner.ts:67-75 | draining a text at once equals draining a prefix and then the leftover followed by the rest |
| LineSplitter.FeedIsDrainOfConcat | ts-sdk/src/runner.ts:67-75 | feeding chunks one data event at a time equals draining their concatenation once |
| LineSplitter.StreamLinesIsReference | ts-sdk/src/runner.ts:59-81 | the consumer calls are the reference lines of the whole stream text: each terminated piece trimmed, then the last piece if the stream ended and it is non-empty |
| LineSplitter.ChunkIndependence | ts-sdk/src/runner.ts:59-81 | two chunkings of the same text produce the same consumer calls |
| LineSplitter.BufferInvariant | ts-sdk/src/runner.ts:65-75 | after the data events the buffer is the unterminated tail of the text seen so far, and the lines emitted are that text's terminated lines |
| LineSplitter.FlushOfBlankLeftover | ts-sdk/src/runner.ts:76-80 | a leftover of only white space still yields one empty line at end of stream; the same text followed by a line feed yields that one empty line and nothing after it |
| LineSplitter.ReferenceOfJoin | ts-sdk/src/runner.ts:59-81 | lines joined with line feeds come back one by one, trimmed, and the unterminated tail only if the stream ended and it is non-empty |
| LineSplitter.SplitOfJoin | ts-sdk/src/runner.ts:70-72 | splitting lines joined with line feeds gives those lines back, followed by the unterminated tail |
| Login.PipeLines | ts-sdk/src/login.ts:63-83 | the login flow's loops make exactly the consumer calls of the runner's splitter, for every stream, chunking and consumer |
| Login.DataEvent | ts-sdk/src/login.ts:71-79 | one data event's inner loop emits the drained lines of buffer plus chunk, tagged, and keeps the drained leftover |
| Readiness.FirstKey | ts-sdk/src/runner.ts:89 | the fallback key is present exactly when the key list is given and non-empty, and it is the first key |
| Readiness.ResolveHealth | ts-sdk/src/runner.ts:89-92 | each option falls back only when omitted: path `/v1/models`, interval 200 ms, 60 retries, and the key falls back to the first configured key |
| Readiness.ProbeRequest | ts-sdk/src/runner.ts:103-109 | the URL is the loopback address of the port followed by the path; headers are sent exactly for a non-empty key, as a bearer token and as `x-api-key` |
| Readiness.ResolveHealthFixedPoint | ts-sdk/src/runner.ts:89-92 | giving every resolved parameter back explicitly, with the same configured keys, resolves to the same parameters |
| Readiness.ProbeRequestDeterminesParams | ts-sdk/src/runner.ts:103-109 | two parameter sets giving the same request for a port agree on the path, on whether a key is sent, and on the key when one is |
| Readiness.PollFrom | ts-sdk/src/runner.ts:101-116 | from attempt i, the loop is ready exactly when some remaining attempt answers ready; it stops at the first such attempt after one delay per earlier failure, and otherwise makes every attempt with a delay after each |
| Readiness.ReadyStatusClasses | ts-sdk/src/runner.ts:110 | every 2xx, 3xx and 4xx status is ready; no 5xx status is; below 200 only 101 is |
| Readiness.NeverReadyExhausts | ts-sdk/src/runner.ts:101-116 | when no attempt within the bound is ready, the wait rejects after exactly `retries` attempts and as many delays |
| Readiness.WaitForReady | ts-sdk/src/runner.ts:83-120 | ready exactly when one of the first `retries` probes has a status in 200..499 or 101; the attempt count and delays are as the loop makes them, and a non-positive `retries` rejects without probing |
| Readiness.PollDependsOnMadeAttempts | ts-sdk/src/runner.ts:101-115 | the outcome depends only on the answers to the attempts within the retry bound |
| ProxyConfig.BuildDocument | ts-sdk/src/config.ts:6-46 | port and auth-dir are always present (the default auth-dir under the home directory); extra's entries win over every other key; no key outside the known ones and extra's appears |
| ProxyConfig.FlagsKeptWhenGiven | ts-sdk/src/config.ts:20-34 | `debug`, `logging-to-file`, `usage-statistics-enabled`, `ws-auth` and `request-log` are each written exactly when defined, as the given boolean, `false` included |
| ProxyConfig.RequestRetryKeptWhenGiven | ts-sdk/src/config.ts:26 | the retry count is written exactly when defined, `0` included |
| ProxyConfig.FalsyScalarsDropped | ts-sdk/src/config.ts:25-44 | the proxy URL is written exactly when non-empty, as given; `auth` exactly when truthy, as given |
| ProxyConfig.KeyListsKeptWhenGiven | ts-sdk/src/config.ts:19-38 | `api-keys`, `gemini-api-key` and `generative-language-api-key` are written whenever given, empty ones included, since arrays are truthy, each holding exactly the given items in order |
| ProxyConfig.ProviderListsKeptWhenGiven | ts-sdk/src/config.ts:40-42 | `codex-api-key`, `claude-api-key` and `openai-compatibility` are written whenever given, empty ones included, each as its own given list |
| ProxyConfig.PayloadKeptWhenGiven | ts-sdk/src/config.ts:43 | the payload object is written whenever given |
| ProxyConfig.NestedObjects | ts-sdk/src/config.ts:11-32 | remote management is written exactly when given, as an object of exactly its three fields: both flags as given (undefined when omitted) and an omitted secret key as `""`; quota handling exactly when given, as an object of exactly its two flags as given |
| ProxyConfig.OnlyAuthDirDocument | ts-sdk/src/config.ts:6-10 | options holding only an auth directory give a document of exactly the port and that directory |
| Platform.ResolveOs | ts-sdk/src/utils.ts:13-34 | windows exactly for win32 and cygwin, darwin exactly for darwin, linux for everything else |
| Platform.ResolveArch | ts-sdk/src/utils.ts:27-35 | arm64 exactly for arm64, 386 exactly for ia32, amd64 for everything else |
| Platform.LinuxFamily | ts-sdk/src/utils.ts:13-34 | the listed Unix-like platforms and every unlisted one resolve to linux |
| Platform.ResolveOwnNames | ts-sdk/src/utils.ts:13-35 | the release's own names linux, darwin, amd64 and arm64 resolve to themselves; windows and 386 fall back |
| Platform.StripLeadingV | ts-sdk/src/utils.ts:46 | exactly one leading `v` is removed, and a version without one is unchanged |
| Platform.StripOnlyOneV | ts-sdk/src/utils.ts:46 | the pattern is anchored and not global: of `v` followed by anything, only that first `v` goes |
| Platform.BuildAssetInfo | ts-sdk/src/utils.ts:40-51 | zip exactly for Windows; the archive name has the project prefix and the matching extension; the URL is the release prefix, the version as given, a slash and the archive name |
| Platform.ArchiveNameRoundTrip | ts-sdk/src/utils.ts:45-47 | parsing the archive name gives back the stripped version, the platform, the architecture and the archive kind |
| BinarySearch.Search | ts-sdk/src/utils.ts:100-113 | a path found belongs to a preferred file reachable from the stack, and nothing is found exactly when no frame holds one |
| BinarySearch.Find | ts-sdk/src/utils.ts:90-114 | a path found is a preferred file in the tree under `dest`, and nothing is found exactly when the tree holds none |
| BinarySearch.RootMatchWins | ts-sdk/src/utils.ts:104-110 | a preferred file in the top directory wins, the first in listing order, before any subdirectory is visited |
| BinarySearch.ReachableNamesPreferred | ts-sdk/src/utils.ts:91-98 | every path the search can return ends with one of the six preferred names |
| BinarySearch.FindBinary | ts-sdk/src/utils.ts:90-114 | the stack-and-loop search returns what the recursive depth-first definition does |
| BinarySearch.ScanListing | ts-sdk/src/utils.ts:104-111 | scanning a listing returns the first preferred file in it, or pushes its subdirectories in order |
| BinarySearch.SubdirsMember | ts-sdk/src/utils.ts:104-107 | a frame is pushed exactly for each directory entry, at its joined path |
| CacheDir.FirstSet | ts-sdk/src/utils.ts:122-125 | the first variable with a non-empty value, and none exactly when all are unset or empty |
| CacheDir.CacheDirFor | ts-sdk/src/utils.ts:121-131 | with no usable variable the directory is `.cliproxy-cache/bin` under the working directory; with one, `bin` resolved against it, unless its value is only white space |
| CacheDir.FirstVariableDecides | ts-sdk/src/utils.ts:122-128 | a set first variable decides alone, and a blank one falls back to the default without trying the others |
| CacheDir.EmptyIsUnset | ts-sdk/src/utils.ts:122-126 | setting any one of the three variables to the empty string gives the same directory as removing it |
| CacheDir.FirstSetAgrees | ts-sdk/src/utils.ts:122-125 | two environments that agree on which variables are set, and on their values, give the same choice |
| Ports.Ephemeral | ts-sdk/src/utils.ts:138-152 | a system-allocated port is used exactly when listening bound a non-zero port |
| Ports.FalsyPreferredSkipsProbe | ts-sdk/src/utils.ts:134-137 | an absent or zero preferred port is never probed: the outcome does not depend on availability |
| Ports.FindOpenPort | ts-sdk/src/utils.ts:133-161 | a truthy preferred port outside 0..65535 rejects, because `listen` throws inside the availability probe; a truthy, valid and available preferred port is returned; otherwise the system allocates one; a returned port is never 0 |
| Ports.PreferredIffAvailable | ts-sdk/src/utils.ts:134-137 | a non-zero preferred port is returned exactly when `listen` accepts it and it is available, unless the system allocates the same number |
| Process.ExitCode | ts-sdk/src/runner.ts:32 | the exit code, or -1 when the child was ended by a signal |
| Process.StatusesAppend | ts-sdk/src/runner.ts:21-46 | the status events of two runs in sequence are those of the first followed by those of the second |
| Process.CleanupTargetsTempDir | ts-sdk/src/runner.ts:132-146 | the cleanup removes exactly the temporary directory the config was written into |
| Runner.StartProxy | ts-sdk/src/runner.ts:14-57 | no port means no effects; with a port, the config is first written, for that port, to `config.yaml` in the temporary directory; a missing binary fails the start with its reason and leaves only that write; with a binary, everything after the write is the launch, waiting on probes sent to the allocated port with the resolved path and key; with a binary (the option, else `ensureBinary` of the version or `latest`), `starting` is reported, and that binary is spawned with `--config` and the written path unless `spawn` refuses it, which rejects the start right there; a start never kills or cleans up; `starting` comes first, and a resolved start reported `starting` then `ready` and resolves with the allocated port, its loopback URL and the written config path |
| Runner.WithPort | ts-sdk/src/runner.ts:17-41 | for an allocated port: the config write comes first; no binary fails with only that write; otherwise `starting` follows, then a binary `spawn` refuses rejects at once, and any other is spawned, followed by exactly the launch, whose readiness wait probes that port with the resolved health-check request; a resolved start is at the loopback URL of that port with the written config path |
| Runner.Launch | ts-sdk/src/runner.ts:21-41 | `starting` is reported; a binary `spawn` refuses (the empty string) rejects right after it; otherwise the binary is spawned with `--config` and the path, then exactly what settling the race does; success exactly when the binary is accepted, readiness wins and is ready |
| Runner.Settle | ts-sdk/src/runner.ts:31-41 | an exit first reports `exited` with its code and rejects; a spawn error rejects silently; readiness first reports `ready` and resolves, or rejects silently when the probes ran out |
| Runner.Stop | ts-sdk/src/runner.ts:43-48 | stop kills, reports `exited` with the exit code or -1, and removes the config's directory |
| Runner.StartThenStop | ts-sdk/src/runner.ts:14-57 | a proxy that became ready and is stopped reports exactly `starting`, `ready`, `exited`, and stopping removes exactly the temporary directory the start created |
| Runner.StartSucceedsIffReady | ts-sdk/src/runner.ts:14-41 | a start with a port and a binary, given or fetched, succeeds exactly when `spawn` accepts the binary, readiness wins the race and one of the first `retries` probes of the allocated port, with the resolved path and key, is ready |
| Runner.ExitFirstReportsCode | ts-sdk/src/runner.ts:14-40 | with a port and a binary, given or fetched, an early exit reports `starting` then `exited` with the code and rejects with it; a binary `spawn` refuses reports only `starting` and rejects without a child |
| Runner.ReadinessFailureReportsOnlyStarting | ts-sdk/src/runner.ts:14-41 | with a port and a binary, given or fetched, when no probe is ready the start rejects with only `starting` reported, because the probes ran out or, for a binary `spawn` refuses, before any probe |
| Runner.EmptyBinaryPathRejects | ts-sdk/src/runner.ts:19-22 | with a port and a `binaryPath` of `""`, the start reports only `starting`, spawns nothing and rejects, whatever the race and the probes |
| Login.ProviderFlag | ts-sdk/src/login.ts:44-61 | every provider gets one of the six flags, and an unknown provider gets `--login` |
| Login.ProviderOfFlag | ts-sdk/src/login.ts:44-61 | a flag names a provider exactly when it is one of the six flags |
| Login.ProviderFlagRoundTrip | ts-sdk/src/login.ts:44-61 | the flag of each known provider names that provider back |
| Login.ProviderFlagInjective | ts-sdk/src/login.ts:44-61 | no two known providers share a flag |
| Login.DefaultProviderFlag | ts-sdk/src/login.ts:11 | an omitted or unknown provider logs in with `--login` |
| Login.LoginArgs | ts-sdk/src/login.ts:22-24 | 3 to 6 arguments: flag, `--config` and the path, then `--no-browser` exactly when asked for, then `--project_id` and the id exactly when the id is non-empty |
| Login.LoginArgsRoundTrip | ts-sdk/src/login.ts:22-24 | the argument vector reads back as the flag, the config path, the browser choice and the non-empty project id |
| Login.PerformLogin | ts-sdk/src/login.ts:9-42 | a missing binary fails with no effects; otherwise the auth directory is created and the login config written; a binary (the option, else `ensureBinary` of the version or `latest`) that `spawn` refuses rejects right there; any other is spawned with the login arguments; success exactly when a child was spawned and exits with code 0, any other exit rejecting with its code or -1; every exit removes the temporary directory; a spawn error rejects with the spawn as the last effect and cleans nothing up; no status events |
| Login.WithBinary | ts-sdk/src/login.ts:14-41 | with the binary found: a binary `spawn` refuses stops after the directory and the config write and rejects; any other runs the setup and waits for the child; no status events |
| Login.EmptyBinaryPathRejects | ts-sdk/src/login.ts:12-26 | a `binaryPath` of `""` leaves only the directory and the config write and rejects, whatever the exit |
| Login.Await | ts-sdk/src/login.ts:34-41 | every exit appends the removal of the temporary directory and succeeds exactly for code 0, any other code or a signal rejecting with the code or -1; a spawn error rejects with nothing appended |
| Login.Setup | ts-sdk/src/login.ts:14-29 | the auth directory is created, a config of only the auth directory and port 0 is written, and the binary is spawned with the provider's flag and the options |
| Login.LoginDocument | ts-sdk/src/login.ts:19 | the login config document holds only port 0 and the auth directory |

## Left out

- Timers, the `readyTimeoutMs` abort and the probe interval are not modelled, because they are about time. An aborted fetch only counts as a failed probe, and the interval only shapes the delays the loop counts.
- `fetch`, sockets, `spawn`, environment merging, stdio wiring, `mkdtemp`, file writes and removals are not modelled as I/O. They appear as oracles (probe outcomes, port availability, the listen result, the exit event, the temp suffix, a directory tree) or as effect values.
- `YAML.stringify` and the key order of the document are left out, because serialisation is a library call. The model stops at the key/value document.
- The downloader (`ensureBinary`, archive download and extraction, `chmod`) is left out because it is not part of this model. Its outcome is an input function from the version to a path or a failure.
- File system failures (`mkdir`, `mkdtemp`, `writeFile`, `readdir` rejecting) are left out, because the code only propagates them.
- Ports are integers. NaN and non-integer ports, and the wider numeric semantics of JavaScript, are not modelled. The range `listen` accepts (0 through 65535) is Node's own check, stated here as a constant.
- Paths: `path.join`, `path.resolve` and `path.dirname` are modelled for POSIX separators only and without normalisation, so `path.resolve("/", "bin")` is `/bin` in Node but `//bin` here, and Windows separators and drive letters are not modelled.
- The lookup tables of `resolvePlatform` are plain maps, so inherited object keys such as `constructor` are not modelled.
- Runner.StartProxy: the log consumer and the environment are not inputs, since they only reach the splitter, which is modelled separately, and the spawned child. Which raced promise settles first is an input rather than derived from timing.
- Login.PerformLogin: a rejected `mkdir` of the auth directory is not modelled, for the file system reason above.
- Of the arguments `spawn` refuses synchronously, only the empty command is modelled. Other refusals Node applies (such as a NUL character in the command or an argument) are left out, because they depend on the Node version.

=== FILE: binary_search.dfy ===
/** `findBinary`: a depth-first search of an extracted release for the proxy
    executable. The directory tree is a finite value; a directory's listing
    is given in the order the file system returns it. */
module BinarySearch {
  import opened Wrappers
  import opened Paths
  import opened Text
  import opened Seqs

  /** A directory entry: a file (anything that is not a directory) or a
      directory with its own listing. */
  datatype Entry = File(name: string) | Dir(name: string, entries: seq<Entry>)

  /** The executable names the release may use. */
  const PreferredNames: set<string> := {
    "cliproxyapi", "cliproxyapi.exe", "CLIProxyAPI", "CLIProxyAPI.exe", "cli-proxy-api", "cli-proxy-api.exe"}

  predicate IsCandidate(e: Entry) {
    e.File? && e.name in PreferredNames
  }

  /** Some file anywhere below the listing has a preferred name. */
  predicate HasCandidate(entries: seq<Entry>)
    decreases entries
  {
    exists i :: 0 <= i < |entries| &&
      (IsCandidate(entries[i]) || (entries[i].Dir? && HasCandidate(entries[i].entries)))
  }

  /** `p` is the joined path of a file with a preferred name somewhere
      below the listing of directory `dir`. */
  predicate Reachable(dir: string, entries: seq<Entry>, p: string)
    decreases entries
  {
    exists i :: 0 <= i < |entries| &&
      ((IsCandidate(entries[i]) && p == Join(dir, entries[i].name))
       || (entries[i].Dir? && Reachable(Join(dir, entries[i].name), entries[i].entries, p)))
  }

  /** A pending directory: its path and its listing. */
  datatype Frame = Frame(path: string, entries: seq<Entry>)

  /** The number of entries in the whole tree below a listing. */
  function Size(entries: seq<Entry>): nat
    decreases entries
  {
    if entries == [] then 0
    else 1 + (if entries[0].Dir? then Size(entries[0].entries) else 0) + Size(entries[1..])
  }

  /** Each pending directory with everything below it. */
  function StackSize(stack: seq<Frame>): nat {
    if stack == [] then 0 else StackSize(stack[..|stack| - 1]) + 1 + Size(stack[|stack| - 1].entries)
  }

  lemma {:induction false} StackSizeAppend(s: seq<Frame>, t: seq<Frame>)
    ensures StackSize(s + t) == StackSize(s) + StackSize(t)
    decreases |t|
  {
    if t != [] {
      var u := s + t;
      assert u[..|u| - 1] == s + t[..|t| - 1];
      assert u[|u| - 1] == t[|t| - 1];
      StackSizeAppend(s, t[..|t| - 1]);
    } else {
      assert s + t == s;
    }
  }

  /** The frame a directory entry of `path` is pushed as. */
  function SubFrame(path: string, e: Entry): Frame
    requires e.Dir?
  {
    Frame(Join(path, e.name), e.entries)
  }

  /** The directories of a listing, as frames, in listing order: what the
      scan of the listing pushes onto the stack. */
  function Subdirs(path: string, entries: seq<Entry>): (fs: seq<Frame>)
    ensures StackSize(fs) <= Size(entries)
    decreases entries
  {
    if entries == [] then []
    else
      var head := if entries[0].Dir? then [SubFrame(path, entries[0])] else [];
      var tail := Subdirs(path, entries[1..]);
      StackSizeAppend(head, tail);
      head + tail
  }

  /** The pushed frames are exactly the directories of the listing. */
  lemma {:induction false} SubdirsMember(path: string, entries: seq<Entry>, f: Frame)
    ensures f in Subdirs(path, entries) <==>
      exists i :: 0 <= i < |entries| && entries[i].Dir? && f == SubFrame(path, entries[i])
    decreases entries
  {
    if entries != [] {
      SubdirsMember(path, entries[1..], f);
      if exists i :: 0 <= i < |entries| && entries[i].Dir? && f == SubFrame(path, entries[i]) {
        var i :| 0 <= i < |entries| && entries[i].Dir? && f == SubFrame(path, entries[i]);
        if i > 0 {
          assert entries[1..][i - 1] == entries[i];
        }
      }
      if f in Subdirs(path, entries[1..]) {
        var i :| 0 <= i < |entries[1..]| && entries[1..][i].Dir? && f == SubFrame(path, entries[1..][i]);
        assert entries[i + 1] == entries[1..][i];
      }
    }
  }

  /** The position of the first file with a preferred name in a listing. */
  function FirstCandidate(entries: seq<Entry>): (r: Option<nat>)
    ensures r.Some? ==> r.value < |entries| && IsCandidate(entries[r.value])
    ensures r.Some? ==> forall i :: 0 <= i < r.value ==> !IsCandidate(entries[i])
    ensures r.None? ==> forall i :: 0 <= i < |entries| ==> !IsCandidate(entries[i])
  {
    if entries == [] then None
    else if IsCandidate(entries[0]) then Some(0)
    else
      match FirstCandidate(entries[1..])
      case None => None
      case Some(k) => Some(k + 1)
  }

  /** Some pending directory holds a preferred file somewhere below it. */
  predicate AnyCandidate(stack: seq<Frame>) {
    exists j :: 0 <= j < |stack| && HasCandidate(stack[j].entries)
  }

  /** `p` is a preferred file below some pending directory. */
  predicate AnyReach(stack: seq<Frame>, p: string) {
    exists j :: 0 <= j < |stack| && Reachable(stack[j].path, stack[j].entries, p)
  }

  /** The search from a stack of pending directories: pop the last one, and
      return the first preferred file of its listing, or push its
      subdirectories and go on. */
  function Search(stack: seq<Frame>): (r: Option<string>)
    ensures r.Some? ==> AnyReach(stack, r.value)
    ensures r.None? <==> !AnyCandidate(stack)
    decreases StackSize(stack)
  {
    if stack == [] then None
    else
      var top := stack[|stack| - 1];
      var rest := stack[..|stack| - 1];
      match FirstCandidate(top.entries)
      case Some(i) =>
        FoundOnTop(stack, i);
        Some(Join(top.path, top.entries[i].name))
      case None =>
        var pushed := Subdirs(top.path, top.entries);
        StackSizeAppend(rest, pushed);
        var r := Search(rest + pushed);
        SearchStep(rest, top, r);
        assert stack == rest + [top];
        r
  }

  /** A preferred file in the listing of the last pending directory is
      reachable from the stack. */
  lemma FoundOnTop(stack: seq<Frame>, i: nat)
    requires stack != []
    requires i < |stack[|stack| - 1].entries| && IsCandidate(stack[|stack| - 1].entries[i])
    ensures AnyReach(stack, Join(stack[|stack| - 1].path, stack[|stack| - 1].entries[i].name))
    ensures AnyCandidate(stack)
  {
    var top := stack[|stack| - 1];
    assert Reachable(top.path, top.entries, Join(top.path, top.entries[i].name));
    assert HasCandidate(top.entries);
  }

  /** The inductive step of `Search`: what holds of the stack after a pop
      and a push carries over to the stack before. */
  lemma SearchStep(rest: seq<Frame>, top: Frame, r: Option<string>)
    requires FirstCandidate(top.entries).None?
    requires r.Some? ==> AnyReach(rest + Subdirs(top.path, top.entries), r.value)
    requires r.None? <==> !AnyCandidate(rest + Subdirs(top.path, top.entries))
    ensures r.Some? ==> AnyReach(rest + [top], r.value)
    ensures r.None? <==> !AnyCandidate(rest + [top])
  {
    var subs := Subdirs(top.path, top.entries);
    AnyCandidateAppend(rest, subs);
    AnyCandidateAppend(rest, [top]);
    SubdirsCandidates(top);
    if r.Some? {
      AnyReachAppend(rest, subs, r.value);
      AnyReachAppend(rest, [top], r.value);
      if AnyReach(subs, r.value) {
        SubdirsReach(top, r.value);
      }
    }
  }

  lemma AnyCandidateAppend(s: seq<Frame>, t: seq<Frame>)
    ensures AnyCandidate(s + t) <==> AnyCandidate(s) || AnyCandidate(t)
  {
    if AnyCandidate(s + t) {
      var j :| 0 <= j < |s + t| && HasCandidate((s + t)[j].entries);
      if j >= |s| {
        assert t[j - |s|] == (s + t)[j];
      }
    }
    if AnyCandidate(t) {
      var j :| 0 <= j < |t| && HasCandidate(t[j].entries);
      assert (s + t)[|s| + j] == t[j];
    }
    if AnyCandidate(s) {
      var j :| 0 <= j < |s| && HasCandidate(s[j].entries);
      assert (s + t)[j] == s[j];
    }
  }

  lemma AnyReachAppend(s: seq<Frame>, t: seq<Frame>, p: string)
    ensures AnyReach(s + t, p) <==> AnyReach(s, p) || AnyReach(t, p)
  {
    if AnyReach(s + t, p) {
      var j :| 0 <= j < |s + t| && Reachable((s + t)[j].path, (s + t)[j].entries, p);
      if j >= |s| {
        assert t[j - |s|] == (s + t)[j];
      }
    }
    if AnyReach(t, p) {
      var j :| 0 <= j < |t| && Reachable(t[j].path, t[j].entries, p);
      assert (s + t)[|s| + j] == t[j];
    }
    if AnyReach(s, p) {
      var j :| 0 <= j < |s| && Reachable(s[j].path, s[j].entries, p);
      assert (s + t)[j] == s[j];
    }
  }

  /** With no preferred file directly in a listing, it holds one below it
      exactly when one of its subdirectories does. */
  lemma SubdirsCandidates(top: Frame)
    requires FirstCandidate(top.entries).None?
    ensures AnyCandidate([top]) <==> AnyCandidate(Subdirs(top.path, top.entries))
  {
    var subs := Subdirs(top.path, top.entries);
    if HasCandidate(top.entries) {
      var i :| 0 <= i < |top.entries| && (IsCandidate(top.entries[i]) || (top.entries[i].Dir? && HasCandidate(top.entries[i].entries)));
      SubdirsMember(top.path, top.entries, SubFrame(top.path, top.entries[i]));
      var k :| 0 <= k < |subs| && subs[k] == SubFrame(top.path, top.entries[i]);
      assert HasCandidate(subs[k].entries);
    }
    if AnyCandidate(subs) {
      var k :| 0 <= k < |subs| && HasCandidate(subs[k].entries);
      assert subs[k] in subs;
      SubdirsMember(top.path, top.entries, subs[k]);
      var i :| 0 <= i < |top.entries| && top.entries[i].Dir? && subs[k] == SubFrame(top.path, top.entries[i]);
      assert HasCandidate(top.entries);
    }
    assert [top][0] == top;
  }

  /** A file reachable from a pushed frame is reachable from the frame that
      pushed it. */
  lemma SubdirsReach(top: Frame, p: string)
    requires AnyReach(Subdirs(top.path, top.entries), p)
    ensures AnyReach([top], p)
  {
    var subs := Subdirs(top.path, top.entries);
    var k :| 0 <= k < |subs| && Reachable(subs[k].path, subs[k].entries, p);
    assert subs[k] in subs;
    SubdirsMember(top.path, top.entries, subs[k]);
    var i :| 0 <= i < |top.entries| && top.entries[i].Dir? && subs[k] == SubFrame(top.path, top.entries[i]);
    assert Reachable(top.path, top.entries, p);
    assert [top][0] == top;
  }

  /** `findBinary(dest)` over the listing `root` of `dest`, as a function. */
  function Find(dest: string, root: seq<Entry>): (r: Option<string>)
    // a returned path is that of a preferred file in the tree
    ensures r.Some? ==> Reachable(dest, root, r.value)
    // nothing is returned only when there is no preferred file anywhere
    ensures r.None? <==> !HasCandidate(root)
  {
    var r := Search([Frame(dest, root)]);
    assert [Frame(dest, root)][0] == Frame(dest, root);
    r
  }

  /** A preferred file directly in the searched directory wins over any
      file below it: the first such file in listing order is returned. */
  lemma RootMatchWins(dest: string, root: seq<Entry>, i: nat)
    requires i < |root| && IsCandidate(root[i])
    requires forall k :: 0 <= k < i ==> !IsCandidate(root[k])
    ensures Find(dest, root) == Some(Join(dest, root[i].name))
  {
    FirstCandidateAt(root, i);
  }

  /** Every path the search can return names a file with a preferred name. */
  lemma {:induction false} ReachableNamesPreferred(dir: string, entries: seq<Entry>, p: string)
    requires Reachable(dir, entries, p)
    ensures exists name :: name in PreferredNames && EndsWith(p, [Sep] + name)
    decreases entries
  {
    var i :| 0 <= i < |entries| &&
      ((IsCandidate(entries[i]) && p == Join(dir, entries[i].name))
       || (entries[i].Dir? && Reachable(Join(dir, entries[i].name), entries[i].entries, p)));
    var e := entries[i];
    if IsCandidate(e) && p == Join(dir, e.name) {
      JoinEndsWithName(dir, e.name);
      assert e.name in PreferredNames;
    } else {
      ReachableNamesPreferred(Join(dir, e.name), e.entries, p);
    }
  }

  /** `findBinary` as the loop it is written as: a stack of directories
      still to list, and a scan of each listing that pushes directories and
      stops at the first preferred file. */
  method FindBinary(dest: string, root: seq<Entry>) returns (r: Option<string>)
    ensures r == Find(dest, root)
  {
    var stack := [Frame(dest, root)];
    while stack != []
      invariant Search(stack) == Search([Frame(dest, root)])
      decreases StackSize(stack)
    {
      var top := stack[|stack| - 1];
      var rest := stack[..|stack| - 1];
      assert stack == rest + [top];
      SearchPop(rest, top);
      StackSizeAppend(rest, [top]);
      StackSizeAppend(rest, Subdirs(top.path, top.entries));
      var found;
      found, stack := ScanListing(rest, top.path, top.entries);
      if found.Some? {
        return found;
      }
    }
    return None;
  }

  /** The scan of one popped listing: directories are pushed in listing
      order, and the first file with a preferred name ends the search. */
  method ScanListing(rest: seq<Frame>, path: string, entries: seq<Entry>)
    returns (found: Option<string>, stack: seq<Frame>)
    ensures FirstCandidate(entries).Some? ==> found == Some(Join(path, entries[FirstCandidate(entries).value].name))
    ensures FirstCandidate(entries).None? ==> found.None? && stack == rest + Subdirs(path, entries)
  {
    stack := rest;
    var k := 0;
    while k < |entries|
      invariant 0 <= k <= |entries|
      invariant stack == rest + Subdirs(path, entries[..k])
      invariant forall i :: 0 <= i < k ==> !IsCandidate(entries[i])
    {
      var entry := entries[k];
      PushStep(rest, path, entries, k);
      if entry.Dir? {
        stack := stack + [SubFrame(path, entry)];
      } else if entry.name in PreferredNames {
        FirstCandidateAt(entries, k);
        return Some(Join(path, entry.name)), stack;
      }
      k := k + 1;
    }
    assert entries[..k] == entries;
    return None, stack;
  }

  /** One pop of the search: the top frame's first preferred file, or the
      search of the rest with its subdirectories pushed. */
  lemma SearchPop(rest: seq<Frame>, top: Frame)
    ensures FirstCandidate(top.entries).Some? ==>
      Search(rest + [top]) == Some(Join(top.path, top.entries[FirstCandidate(top.entries).value].name))
    ensures FirstCandidate(top.entries).None? ==>
      Search(rest + [top]) == Search(rest + Subdirs(top.path, top.entries))
  {
    var s := rest + [top];
    assert s[..|s| - 1] == rest;
    assert s[|s| - 1] == top;
  }

  /** The first preferred file is where `FirstCandidate` finds it. */
  lemma FirstCandidateAt(entries: seq<Entry>, k: nat)
    requires k < |entries| && IsCandidate(entries[k])
    requires forall i :: 0 <= i < k ==> !IsCandidate(entries[i])
    ensures FirstCandidate(entries) == Some(k)
  {
  }

  lemma {:induction false} SubdirsAppend(path: string, a: seq<Entry>, b: seq<Entry>)
    ensures Subdirs(path, a + b) == Subdirs(path, a) + Subdirs(path, b)
    decreases |a|
  {
    if a == [] {
      assert a + b == b;
    } else {
      var head := if a[0].Dir? then [SubFrame(path, a[0])] else [];
      assert (a + b)[0] == a[0];
      assert (a + b)[1..] == a[1..] + b;
      SubdirsAppend(path, a[1..], b);
      AppendAssoc(head, Subdirs(path, a[1..]), Subdirs(path, b));
    }
  }

  /** The stack after one more entry of the scan. */
  lemma PushStep(rest: seq<Frame>, path: string, entries: seq<Entry>, k: nat)
    requires k < |entries|
    ensures rest + Subdirs(path, entries[..k + 1])
         == (rest + Subdirs(path, entries[..k])) + (if entries[k].Dir? then [SubFrame(path, entries[k])] else [])
  {
    SubdirsSnoc(path, entries, k);
    AppendAssoc(rest, Subdirs(path, entries[..k]), if entries[k].Dir? then [SubFrame(path, entries[k])] else []);
  }

  lemma SubdirsSnoc(path: string, entries: seq<Entry>, k: nat)
    requires k < |entries|
    ensures Subdirs(path, entries[..k + 1])
         == Subdirs(path, entries[..k])
            + (if entries[k].Dir? then [SubFrame(path, entries[k])] else [])
  {
    assert entries[..k + 1] == entries[..k] + [entries[k]];
    SubdirsAppend(path, entries[..k], [entries[k]]);
  }
}

=== FILE: cache_dir.dfy ===
/** `cacheDir`: where downloaded binaries are cached. The environment is a
    map from variable names to values, and the working directory an input. */
module CacheDir {
  import opened Wrappers
  import opened Text
  import opened Paths

  type Env = map<string, string>

  /** The variables consulted, in order of precedence. */
  const CacheVars: seq<string> := ["CLIPROXYAPI_CACHE_DIR", "CLIPROXY_CACHE_DIR", "CLI_PROXY_API_CACHE_DIR"]

  /** A variable is truthy when it is set to a non-empty string. */
  predicate IsSetIn(env: Env, name: string) {
    name in env && env[name] != ""
  }

  /** `env[a] || env[b] || ...`: the value of the first truthy variable;
      when every one is unset or empty the chain is falsy. */
  function FirstSet(env: Env, names: seq<string>): (r: Option<string>)
    ensures r.None? <==> forall i :: 0 <= i < |names| ==> !IsSetIn(env, names[i])
    ensures r.Some? ==> exists i :: (0 <= i < |names| && IsSetIn(env, names[i]) && r.value == env[names[i]]
      && forall k :: 0 <= k < i ==> !IsSetIn(env, names[k]))
  {
    if names == [] then None
    else if IsSetIn(env, names[0]) then Some(env[names[0]])
    else
      var r := FirstSet(env, names[1..]);
      assert forall i :: 1 <= i < |names| ==> names[i] == names[1..][i - 1];
      r
  }

  const CacheDirName: string := ".cliproxy-cache"

  /** The default: a project-local cache below the working directory. */
  function DefaultCacheDir(cwd: string): string {
    Join(Join(cwd, CacheDirName), "bin")
  }

  /** `cacheDir()`: `bin` below the first truthy variable when that value
      is not blank, resolved against the working directory; otherwise the
      default. A blank first value is not skipped: it yields the default. */
  function CacheDirFor(env: Env, cwd: string): (dir: string)
    ensures FirstSet(env, CacheVars).None? ==> dir == DefaultCacheDir(cwd)
    ensures FirstSet(env, CacheVars).Some? ==>
      var v := FirstSet(env, CacheVars).value;
      && (AllSpace(v) ==> dir == DefaultCacheDir(cwd))
      && (!AllSpace(v) ==> dir == Resolve(cwd, v, "bin") && EndsWith(dir, "/bin"))
  {
    var envDir := FirstSet(env, CacheVars);
    TrimEmptyIffAllSpace(envDir.GetOr(""));
    if envDir.Some? && Trim(envDir.value) != "" then Resolve(cwd, envDir.value, "bin") else DefaultCacheDir(cwd)
  }

  /** The first variable, when set, decides alone: the others are not
      looked at, even when its value is blank. */
  lemma FirstVariableDecides(env: Env, cwd: string, other: Env)
    requires IsSetIn(env, CacheVars[0])
    requires IsSetIn(other, CacheVars[0]) && other[CacheVars[0]] == env[CacheVars[0]]
    ensures CacheDirFor(env, cwd) == CacheDirFor(other, cwd)
    ensures AllSpace(env[CacheVars[0]]) ==> CacheDirFor(env, cwd) == DefaultCacheDir(cwd)
  {
    assert FirstSet(env, CacheVars) == Some(env[CacheVars[0]]);
    assert FirstSet(other, CacheVars) == Some(env[CacheVars[0]]);
  }

  /** An empty variable is skipped like an unset one: setting any of the
      three variables to the empty string is the same as removing it. */
  lemma EmptyIsUnset(env: Env, cwd: string, k: nat)
    requires k < |CacheVars|
    ensures CacheDirFor(env[CacheVars[k] := ""], cwd) == CacheDirFor(env - {CacheVars[k]}, cwd)
  {
    var e1 := env[CacheVars[k] := ""];
    var e2 := env - {CacheVars[k]};
    assert forall i :: 0 <= i < |CacheVars| ==> (IsSetIn(e1, CacheVars[i]) <==> IsSetIn(e2, CacheVars[i]));
    FirstSetAgrees(e1, e2, CacheVars);
  }

  /** Two environments that agree on which variables are set, and to what,
      give the same chain value. */
  lemma {:induction false} FirstSetAgrees(e1: Env, e2: Env, names: seq<string>)
    requires forall i :: 0 <= i < |names| ==> (IsSetIn(e1, names[i]) <==> IsSetIn(e2, names[i]))
    requires forall i :: 0 <= i < |names| && IsSetIn(e1, names[i]) && IsSetIn(e2, names[i]) ==> e1[names[i]] == e2[names[i]]
    ensures FirstSet(e1, names) == FirstSet(e2, names)
  {
    if names != [] && !IsSetIn(e1, names[0]) {
      assert forall i :: 1 <= i < |names| ==> names[i] == names[1..][i - 1];
      FirstSetAgrees(e1, e2, names[1..]);
    }
  }
}

=== FILE: config.dfy ===
/** The configuration document the proxy is started with: the key/value map
    `buildConfigYaml` assembles from the typed options and the enforced port,
    before it is serialised as YAML. */
module ProxyConfig {
  import opened Wrappers
  import opened Paths

  /** A JavaScript value as it can appear in the document. */
  datatype Value =
    | Undefined
    | Null
    | Bool(b: bool)
    | Num(n: int)
    | Str(s: string)
    | Arr(items: seq<Value>)
    | Obj(fields: map<string, Value>)

  /** JavaScript truthiness (numbers are integers here, so NaN is left out). */
  predicate Truthy(v: Value) {
    match v
    case Undefined => false
    case Null => false
    case Bool(b) => b
    case Num(n) => n != 0
    case Str(s) => s != ""
    case Arr(_) => true
    case Obj(_) => true
  }

  datatype RemoteManagement = RemoteManagement(
    allowRemote: Option<bool>,
    secretKey: Option<string>,
    disableControlPanel: Option<bool>)

  datatype QuotaExceeded = QuotaExceeded(switchProject: Option<bool>, switchPreviewModel: Option<bool>)

  /** The typed options; `None` is an omitted field. The nested entry types
      (API-key entries, compatibility entries, payload rules) are carried as
      the values they are copied into the document as. */
  datatype Config = Config(
    port: Option<int>,
    remoteManagement: Option<RemoteManagement>,
    authDir: Option<string>,
    apiKeys: Option<seq<string>>,
    debug: Option<bool>,
    loggingToFile: Option<bool>,
    usageStatisticsEnabled: Option<bool>,
    proxyUrl: Option<string>,
    requestRetry: Option<int>,
    quotaExceeded: Option<QuotaExceeded>,
    wsAuth: Option<bool>,
    requestLog: Option<bool>,
    geminiApiKey: Option<seq<Value>>,
    generativeLanguageApiKey: Option<seq<string>>,
    codexApiKey: Option<seq<Value>>,
    claudeApiKey: Option<seq<Value>>,
    openaiCompatibility: Option<seq<Value>>,
    payload: Option<map<string, Value>>,
    auth: Value,
    extra: Option<map<string, Value>>)

  /** Options with every field omitted except the auth directory. */
  function OnlyAuthDir(authDir: string): Config {
    Config(None, None, Some(authDir), None, None, None, None, None, None, None, None, None,
           None, None, None, None, None, None, Undefined, None)
  }

  type Doc = map<string, Value>

  function OptBool(b: Option<bool>): Value {
    if b.Some? then Bool(b.value) else Undefined
  }

  /** A list of strings as an array of string values, item by item. */
  function Strings(ss: seq<string>): (v: Value)
    ensures v.Arr? && |v.items| == |ss|
    ensures forall i :: 0 <= i < |ss| ==> v.items[i] == Str(ss[i])
  {
    Arr(seq(|ss|, i requires 0 <= i < |ss| => Str(ss[i])))
  }

  /** The keys the options can produce, besides those of `extra`. */
  const KnownKeys: set<string> := {
    "port", "auth-dir", "remote-management", "api-keys", "debug", "logging-to-file",
    "usage-statistics-enabled", "proxy-url", "request-retry", "quota-exceeded", "ws-auth",
    "request-log", "gemini-api-key", "generative-language-api-key", "codex-api-key",
    "claude-api-key", "openai-compatibility", "payload", "auth"}

  function DefaultAuthDir(homeDir: string): string {
    Join(homeDir, ".cli-proxy-api")
  }

  function RemoteManagementValue(rm: RemoteManagement): Value {
    Obj(map[
      "allow-remote" := OptBool(rm.allowRemote),
      "secret-key" := Str(rm.secretKey.GetOr("")),
      "disable-control-panel" := OptBool(rm.disableControlPanel)])
  }

  function QuotaExceededValue(q: QuotaExceeded): Value {
    Obj(map[
      "switch-project" := OptBool(q.switchProject),
      "switch-preview-model" := OptBool(q.switchPreviewModel)])
  }

  /** An optional field written only when `present`. */
  function When(present: bool, v: Value): Option<Value> {
    if present then Some(v) else None
  }

  /** The entry the options give for one key before `extra` is applied
      (None: the key is not written). The port and the auth directory are
      always written; fields compared with `undefined` are written whenever
      given, so `false` and `0` are kept; the rest only when truthy. */
  function Entry(c: Config, enforcedPort: int, homeDir: string, key: string): Option<Value> {
    if key == "port" then Some(Num(enforcedPort))
    else if key == "auth-dir" then Some(Str(c.authDir.GetOr(DefaultAuthDir(homeDir))))
    else if key == "remote-management" then
      When(c.remoteManagement.Some?, RemoteManagementValue(c.remoteManagement.GetOr(RemoteManagement(None, None, None))))
    else if key == "api-keys" then When(c.apiKeys.Some?, Strings(c.apiKeys.GetOr([])))
    else if key == "debug" then When(c.debug.Some?, OptBool(c.debug))
    else if key == "logging-to-file" then When(c.loggingToFile.Some?, OptBool(c.loggingToFile))
    else if key == "usage-statistics-enabled" then
      When(c.usageStatisticsEnabled.Some?, OptBool(c.usageStatisticsEnabled))
    else if key == "proxy-url" then
      When(c.proxyUrl.Some? && c.proxyUrl.value != "", Str(c.proxyUrl.GetOr("")))
    else if key == "request-retry" then When(c.requestRetry.Some?, Num(c.requestRetry.GetOr(0)))
    else if key == "quota-exceeded" then
      When(c.quotaExceeded.Some?, QuotaExceededValue(c.quotaExceeded.GetOr(QuotaExceeded(None, None))))
    else if key == "ws-auth" then When(c.wsAuth.Some?, OptBool(c.wsAuth))
    else if key == "request-log" then When(c.requestLog.Some?, OptBool(c.requestLog))
    else if key == "gemini-api-key" then When(c.geminiApiKey.Some?, Arr(c.geminiApiKey.GetOr([])))
    else if key == "generative-language-api-key" then
      When(c.generativeLanguageApiKey.Some?, Strings(c.generativeLanguageApiKey.GetOr([])))
    else if key == "codex-api-key" then When(c.codexApiKey.Some?, Arr(c.codexApiKey.GetOr([])))
    else if key == "claude-api-key" then When(c.claudeApiKey.Some?, Arr(c.claudeApiKey.GetOr([])))
    else if key == "openai-compatibility" then
      When(c.openaiCompatibility.Some?, Arr(c.openaiCompatibility.GetOr([])))
    else if key == "payload" then When(c.payload.Some?, Obj(c.payload.GetOr(map[])))
    else if key == "auth" then When(Truthy(c.auth), c.auth)
    else None
  }

  function ExtraKeys(c: Config): set<string> {
    if c.extra.Some? then c.extra.value.Keys else {}
  }

  predicate InExtra(c: Config, key: string) {
    c.extra.Some? && key in c.extra.value
  }

  /** `buildConfigYaml(config, enforcedPort)` up to serialisation: the
      entries the options give, with the entries of `extra` assigned over
      them. */
  function BuildDocument(c: Config, enforcedPort: int, homeDir: string): (doc: Doc)
    // the port and the auth directory are always present, and only extra can displace them
    ensures "port" in doc && "auth-dir" in doc
    ensures !InExtra(c, "port") ==> doc["port"] == Num(enforcedPort)
    ensures !InExtra(c, "auth-dir") ==>
      doc["auth-dir"] == Str(if c.authDir.Some? then c.authDir.value else DefaultAuthDir(homeDir))
    // extra is applied last and wins over every other key
    ensures forall k :: InExtra(c, k) ==> k in doc && doc[k] == c.extra.value[k]
    // nothing but the known keys and extra's keys appear
    ensures forall k :: k in doc ==> k in KnownKeys || InExtra(c, k)
  {
    map k | k in KnownKeys + ExtraKeys(c) && (Entry(c, enforcedPort, homeDir, k).Some? || InExtra(c, k)) ::
      if c.extra.Some? && k in c.extra.value then c.extra.value[k] else Entry(c, enforcedPort, homeDir, k).value
  }

  /** Away from the keys of `extra`, the document holds exactly the entries
      the options give. */
  lemma DocumentEntry(c: Config, enforcedPort: int, homeDir: string, key: string)
    requires !InExtra(c, key)
    ensures var doc := BuildDocument(c, enforcedPort, homeDir);
      && (key in doc <==> key in KnownKeys && Entry(c, enforcedPort, homeDir, key).Some?)
      && (key in doc ==> doc[key] == Entry(c, enforcedPort, homeDir, key).value)
  {
  }

  /** A key written exactly when `given`, as `v`, shows up in the document
      that way unless `extra` displaces it. */
  lemma GivenEntry(c: Config, enforcedPort: int, homeDir: string, key: string, given: bool, v: Value)
    requires !InExtra(c, key) && key in KnownKeys
    requires Entry(c, enforcedPort, homeDir, key) == When(given, v)
    ensures var doc := BuildDocument(c, enforcedPort, homeDir);
      && (key in doc <==> given)
      && (given ==> doc[key] == v)
  {
    DocumentEntry(c, enforcedPort, homeDir, key);
  }

  /** The boolean flags are compared with `undefined`: each is written
      whenever it is given, `false` included, as the given value, and never
      otherwise. */
  lemma FlagsKeptWhenGiven(c: Config, enforcedPort: int, homeDir: string)
    ensures var doc := BuildDocument(c, enforcedPort, homeDir);
      && (!InExtra(c, "debug") ==> ("debug" in doc <==> c.debug.Some?))
      && (!InExtra(c, "debug") && c.debug.Some? ==> doc["debug"] == Bool(c.debug.value))
      && (!InExtra(c, "logging-to-file") ==> ("logging-to-file" in doc <==> c.loggingToFile.Some?))
      && (!InExtra(c, "logging-to-file") && c.loggingToFile.Some? ==>
            doc["logging-to-file"] == Bool(c.loggingToFile.value))
      && (!InExtra(c, "usage-statistics-enabled") ==>
            ("usage-statistics-enabled" in doc <==> c.usageStatisticsEnabled.Some?))
      && (!InExtra(c, "usage-statistics-enabled") && c.usageStatisticsEnabled.Some? ==>
            doc["usage-statistics-enabled"] == Bool(c.usageStatisticsEnabled.value))
      && (!InExtra(c, "ws-auth") ==> ("ws-auth" in doc <==> c.wsAuth.Some?))
      && (!InExtra(c, "ws-auth") && c.wsAuth.Some? ==> doc["ws-auth"] == Bool(c.wsAuth.value))
      && (!InExtra(c, "request-log") ==> ("request-log" in doc <==> c.requestLog.Some?))
      && (!InExtra(c, "request-log") && c.requestLog.Some? ==> doc["request-log"] == Bool(c.requestLog.value))
  {
    if !InExtra(c, "debug") {
      GivenEntry(c, enforcedPort, homeDir, "debug", c.debug.Some?, OptBool(c.debug));
    }
    if !InExtra(c, "logging-to-file") {
      GivenEntry(c, enforcedPort, homeDir, "logging-to-file", c.loggingToFile.Some?, OptBool(c.loggingToFile));
    }
    if !InExtra(c, "usage-statistics-enabled") {
      GivenEntry(c, enforcedPort, homeDir, "usage-statistics-enabled",
                 c.usageStatisticsEnabled.Some?, OptBool(c.usageStatisticsEnabled));
    }
    if !InExtra(c, "ws-auth") {
      GivenEntry(c, enforcedPort, homeDir, "ws-auth", c.wsAuth.Some?, OptBool(c.wsAuth));
    }
    if !InExtra(c, "request-log") {
      GivenEntry(c, enforcedPort, homeDir, "request-log", c.requestLog.Some?, OptBool(c.requestLog));
    }
  }

  /** The retry count is compared with `undefined` too, so a given `0` is
      written. */
  lemma RequestRetryKeptWhenGiven(c: Config, enforcedPort: int, homeDir: string)
    requires !InExtra(c, "request-retry")
    ensures var doc := BuildDocument(c, enforcedPort, homeDir);
      && ("request-retry" in doc <==> c.requestRetry.Some?)
      && (c.requestRetry.Some? ==> doc["request-retry"] == Num(c.requestRetry.value))
  {
    GivenEntry(c, enforcedPort, homeDir, "request-retry", c.requestRetry.Some?, Num(c.requestRetry.GetOr(0)));
  }

  /** The proxy URL and `auth` are gated on truthiness: an empty URL and a
      falsy `auth` value are left out, and a truthy one is written as given. */
  lemma FalsyScalarsDropped(c: Config, enforcedPort: int, homeDir: string)
    ensures var doc := BuildDocument(c, enforcedPort, homeDir);
      && (!InExtra(c, "proxy-url") ==> ("proxy-url" in doc <==> c.proxyUrl.Some? && c.proxyUrl.value != ""))
      && (!InExtra(c, "proxy-url") && c.proxyUrl.Some? && c.proxyUrl.value != "" ==>
            doc["proxy-url"] == Str(c.proxyUrl.value))
      && (!InExtra(c, "auth") ==> ("auth" in doc <==> Truthy(c.auth)))
      && (!InExtra(c, "auth") && Truthy(c.auth) ==> doc["auth"] == c.auth)
  {
    if !InExtra(c, "proxy-url") {
      GivenEntry(c, enforcedPort, homeDir, "proxy-url",
                 c.proxyUrl.Some? && c.proxyUrl.value != "", Str(c.proxyUrl.GetOr("")));
    }
    if !InExtra(c, "auth") {
      GivenEntry(c, enforcedPort, homeDir, "auth", Truthy(c.auth), c.auth);
    }
  }

  /** The list fields are gated on truthiness as well, but an array is
      always truthy, so each is written whenever given, empty ones included,
      holding the given keys in order. */
  lemma KeyListsKeptWhenGiven(c: Config, enforcedPort: int, homeDir: string)
    ensures var doc := BuildDocument(c, enforcedPort, homeDir);
      && (!InExtra(c, "api-keys") ==> ("api-keys" in doc <==> c.apiKeys.Some?))
      && (!InExtra(c, "api-keys") && c.apiKeys.Some? ==> doc["api-keys"] == Strings(c.apiKeys.value))
      && (!InExtra(c, "gemini-api-key") ==> ("gemini-api-key" in doc <==> c.geminiApiKey.Some?))
      && (!InExtra(c, "gemini-api-key") && c.geminiApiKey.Some? ==>
            doc["gemini-api-key"] == Arr(c.geminiApiKey.value))
      && (!InExtra(c, "generative-language-api-key") ==>
            ("generative-language-api-key" in doc <==> c.generativeLanguageApiKey.Some?))
      && (!InExtra(c, "generative-language-api-key") && c.generativeLanguageApiKey.Some? ==>
            doc["generative-language-api-key"] == Strings(c.generativeLanguageApiKey.value))
  {
    if !InExtra(c, "api-keys") {
      GivenEntry(c, enforcedPort, homeDir, "api-keys", c.apiKeys.Some?, Strings(c.apiKeys.GetOr([])));
    }
    if !InExtra(c, "gemini-api-key") {
      GivenEntry(c, enforcedPort, homeDir, "gemini-api-key", c.geminiApiKey.Some?, Arr(c.geminiApiKey.GetOr([])));
    }
    if !InExtra(c, "generative-language-api-key") {
      GivenEntry(c, enforcedPort, homeDir, "generative-language-api-key",
                 c.generativeLanguageApiKey.Some?, Strings(c.generativeLanguageApiKey.GetOr([])));
    }
  }

  /** As for the key lists: the remaining provider lists are written whenever
      given, empty ones included, each as its own given list. */
  lemma ProviderListsKeptWhenGiven(c: Config, enforcedPort: int, homeDir: string)
    ensures var doc := BuildDocument(c, enforcedPort, homeDir);
      && (!InExtra(c, "codex-api-key") ==> ("codex-api-key" in doc <==> c.codexApiKey.Some?))
      && (!InExtra(c, "codex-api-key") && c.codexApiKey.Some? ==>
            doc["codex-api-key"] == Arr(c.codexApiKey.value))
      && (!InExtra(c, "claude-api-key") ==> ("claude-api-key" in doc <==> c.claudeApiKey.Some?))
      && (!InExtra(c, "claude-api-key") && c.claudeApiKey.Some? ==>
            doc["claude-api-key"] == Arr(c.claudeApiKey.value))
      && (!InExtra(c, "openai-compatibility") ==>
            ("openai-compatibility" in doc <==> c.openaiCompatibility.Some?))
      && (!InExtra(c, "openai-compatibility") && c.openaiCompatibility.Some? ==>
            doc["openai-compatibility"] == Arr(c.openaiCompatibility.value))
  {
    if !InExtra(c, "codex-api-key") {
      GivenEntry(c, enforcedPort, homeDir, "codex-api-key", c.codexApiKey.Some?, Arr(c.codexApiKey.GetOr([])));
    }
    if !InExtra(c, "claude-api-key") {
      GivenEntry(c, enforcedPort, homeDir, "claude-api-key", c.claudeApiKey.Some?, Arr(c.claudeApiKey.GetOr([])));
    }
    if !InExtra(c, "openai-compatibility") {
      GivenEntry(c, enforcedPort, homeDir, "openai-compatibility",
                 c.openaiCompatibility.Some?, Arr(c.openaiCompatibility.GetOr([])));
    }
  }

  /** An object is always truthy: the payload rules are written whenever
      given, even with no rules in them. */
  lemma PayloadKeptWhenGiven(c: Config, enforcedPort: int, homeDir: string)
    requires !InExtra(c, "payload")
    ensures var doc := BuildDocument(c, enforcedPort, homeDir);
      && ("payload" in doc <==> c.payload.Some?)
      && (c.payload.Some? ==> doc["payload"] == Obj(c.payload.value))
  {
    GivenEntry(c, enforcedPort, homeDir, "payload", c.payload.Some?, Obj(c.payload.GetOr(map[])));
  }

  /** Remote management is written exactly when given, as an object of its
      three fields: the two flags as given (an omitted one stays undefined)
      and an omitted secret key as the empty string. Quota handling is
      written exactly when given, as an object of its two flags. */
  lemma NestedObjects(c: Config, enforcedPort: int, homeDir: string)
    ensures var doc := BuildDocument(c, enforcedPort, homeDir);
      && (!InExtra(c, "remote-management") ==> ("remote-management" in doc <==> c.remoteManagement.Some?))
      && (!InExtra(c, "remote-management") && c.remoteManagement.Some? ==>
            var rm := c.remoteManagement.value;
            && doc["remote-management"].Obj?
            && doc["remote-management"].fields.Keys == {"allow-remote", "secret-key", "disable-control-panel"}
            && doc["remote-management"].fields["allow-remote"]
               == (if rm.allowRemote.Some? then Bool(rm.allowRemote.value) else Undefined)
            && doc["remote-management"].fields["secret-key"]
               == Str(if rm.secretKey.Some? then rm.secretKey.value else "")
            && doc["remote-management"].fields["disable-control-panel"]
               == (if rm.disableControlPanel.Some? then Bool(rm.disableControlPanel.value) else Undefined))
      && (!InExtra(c, "quota-exceeded") ==> ("quota-exceeded" in doc <==> c.quotaExceeded.Some?))
      && (!InExtra(c, "quota-exceeded") && c.quotaExceeded.Some? ==>
            var q := c.quotaExceeded.value;
            && doc["quota-exceeded"].Obj?
            && doc["quota-exceeded"].fields.Keys == {"switch-project", "switch-preview-model"}
            && doc["quota-exceeded"].fields["switch-project"]
               == (if q.switchProject.Some? then Bool(q.switchProject.value) else Undefined)
            && doc["quota-exceeded"].fields["switch-preview-model"]
               == (if q.switchPreviewModel.Some? then Bool(q.switchPreviewModel.value) else Undefined))
  {
    if !InExtra(c, "remote-management") {
      var rm := c.remoteManagement.GetOr(RemoteManagement(None, None, None));
      GivenEntry(c, enforcedPort, homeDir, "remote-management", c.remoteManagement.Some?, RemoteManagementValue(rm));
      RemoteManagementFields(rm);
    }
    if !InExtra(c, "quota-exceeded") {
      var q := c.quotaExceeded.GetOr(QuotaExceeded(None, None));
      GivenEntry(c, enforcedPort, homeDir, "quota-exceeded", c.quotaExceeded.Some?, QuotaExceededValue(q));
      QuotaExceededFields(q);
    }
  }

  /** The remote-management object holds its three fields, the flags as
      given and the secret key defaulted to the empty string. */
  lemma RemoteManagementFields(rm: RemoteManagement)
    ensures var v := RemoteManagementValue(rm);
      && v.Obj?
      && v.fields.Keys == {"allow-remote", "secret-key", "disable-control-panel"}
      && v.fields["allow-remote"] == (if rm.allowRemote.Some? then Bool(rm.allowRemote.value) else Undefined)
      && v.fields["secret-key"] == Str(if rm.secretKey.Some? then rm.secretKey.value else "")
      && v.fields["disable-control-panel"]
         == (if rm.disableControlPanel.Some? then Bool(rm.disableControlPanel.value) else Undefined)
  {
  }

  /** The quota object holds its two flags as given. */
  lemma QuotaExceededFields(q: QuotaExceeded)
    ensures var v := QuotaExceededValue(q);
      && v.Obj?
      && v.fields.Keys == {"switch-project", "switch-preview-model"}
      && v.fields["switch-project"] == (if q.switchProject.Some? then Bool(q.switchProject.value) else Undefined)
      && v.fields["switch-preview-model"]
         == (if q.switchPreviewModel.Some? then Bool(q.switchPreviewModel.value) else Undefined)
  {
  }

  /** The login flow's document: only the port and the auth directory. */
  lemma OnlyAuthDirDocument(authDir: string, enforcedPort: int, homeDir: string)
    ensures BuildDocument(OnlyAuthDir(authDir), enforcedPort, homeDir)
         == map["port" := Num(enforcedPort), "auth-dir" := Str(authDir)]
  {
    var c := OnlyAuthDir(authDir);
    var doc := BuildDocument(c, enforcedPort, homeDir);
    var expected := map["port" := Num(enforcedPort), "auth-dir" := Str(authDir)];
    forall key | key in doc
      ensures key == "port" || key == "auth-dir"
    {
      OnlyAuthDirEntry(authDir, enforcedPort, homeDir, key);
      DocumentEntry(c, enforcedPort, homeDir, key);
    }
    assert doc.Keys == expected.Keys;
  }

  /** Options holding only an auth directory give entries for the port and
      that directory and for no other key. */
  lemma OnlyAuthDirEntry(authDir: string, enforcedPort: int, homeDir: string, key: string)
    ensures Entry(OnlyAuthDir(authDir), enforcedPort, homeDir, key).Some? <==> key == "port" || key == "auth-dir"
  {
  }
}

=== FILE: line_splitter.dfy ===
/** The log line splitter attached to a child's stdout and stderr: a fold
    over the chunks the stream delivers, carrying the text after the last
    line feed as a buffer, emitting one trimmed line per line feed and, at
    end of stream, the leftover buffer when it is not empty. */
module LineSplitter {
  import opened Wrappers
  import opened Text
  import opened Seqs

  datatype Source = Stdout | Stderr

  /** One call of the log consumer. */
  datatype LogLine = LogLine(source: Source, line: string)

  const NL: char := '\n'

  /** What one pass of the splitting loop leaves: the lines it emitted and
      the buffer it carries on. */
  datatype Drained = Drained(lines: seq<string>, rest: string)

  /** The `while (indexOf("\n") !== -1)` loop of the data handler: cut the
      buffer at its first line feed, emit the part before it with trailing
      white space removed, keep what follows, and repeat. */
  function Drain(buffer: string): (d: Drained)
    ensures NL !in d.rest
    ensures NL !in buffer ==> d == Drained([], buffer)
    decreases |buffer|
  {
    var idx := IndexOf(buffer, NL);
    if idx == -1 then Drained([], buffer)
    else
      var more := Drain(buffer[idx + 1..]);
      Drained([TrimEnd(buffer[..idx])] + more.lines, more.rest)
  }

  /** One `data` event: the chunk is appended to the buffer and drained. */
  function OnData(buffer: string, chunk: string): (d: Drained)
    ensures NL !in d.rest
  {
    Drain(buffer + chunk)
  }

  /** The `end` event: the leftover buffer, trimmed, if it is non-empty
      before trimming. */
  function OnEnd(buffer: string): seq<string> {
    if |buffer| > 0 then [TrimEnd(buffer)] else []
  }

  /** The data events of a stream, in order, starting from `buffer`. */
  function FeedChunks(buffer: string, chunks: seq<string>): (d: Drained)
    requires NL !in buffer
    ensures NL !in d.rest
    decreases |chunks|
  {
    if chunks == [] then Drained([], buffer)
    else
      var first := OnData(buffer, chunks[0]);
      var more := FeedChunks(first.rest, chunks[1..]);
      Drained(first.lines + more.lines, more.rest)
  }

  function Tag(source: Source, lines: seq<string>): (out: seq<LogLine>)
    ensures |out| == |lines|
    ensures forall i :: 0 <= i < |out| ==> out[i] == LogLine(source, lines[i])
  {
    seq(|lines|, i requires 0 <= i < |lines| => LogLine(source, lines[i]))
  }

  lemma TagAppend(source: Source, a: seq<string>, b: seq<string>)
    ensures Tag(source, a + b) == Tag(source, a) + Tag(source, b)
  {
    var l := Tag(source, a + b);
    var r := Tag(source, a) + Tag(source, b);
    assert forall i :: 0 <= i < |l| ==> l[i] == r[i] by {
      forall i | 0 <= i < |l| ensures l[i] == r[i] {
        if i < |a| { assert (a + b)[i] == a[i]; } else { assert (a + b)[i] == b[i - |a|]; }
      }
    }
  }

  lemma TagSnoc(source: Source, lines: seq<string>, line: string)
    ensures Tag(source, lines + [line]) == Tag(source, lines) + [LogLine(source, line)]
  {
    TagAppend(source, lines, [line]);
    assert Tag(source, [line])[0] == LogLine(source, line);
  }

  /** `streamLines(stream, source, consumer)`: the consumer calls made for a
      stream that delivers `chunks` (None when there is no stream) and then
      ends when `ended` holds. Without a stream or without a consumer the
      handler attaches nothing and no call is made. */
  function StreamLines(stream: Option<seq<string>>, hasConsumer: bool, source: Source, ended: bool)
    : (out: seq<LogLine>)
    ensures stream.None? || !hasConsumer ==> out == []
    ensures forall i :: 0 <= i < |out| ==> out[i].source == source
  {
    if stream.None? || !hasConsumer then []
    else
      var fed := FeedChunks("", stream.value);
      Tag(source, fed.lines + (if ended then OnEnd(fed.rest) else []))
  }

  // ---------------------------------------------------------------------
  // Reference: the whole stream text split at its line feeds.

  function Concat(chunks: seq<string>): string
    decreases |chunks|
  {
    if chunks == [] then [] else chunks[0] + Concat(chunks[1..])
  }

  /** One more chunk extends the text by that chunk. */
  lemma {:induction false} ConcatSnoc(chunks: seq<string>, chunk: string)
    ensures Concat(chunks + [chunk]) == Concat(chunks) + chunk
    decreases |chunks|
  {
    if chunks == [] {
      assert chunks + [chunk] == [chunk];
      assert Concat([chunk]) == chunk + Concat([]);
    } else {
      assert (chunks + [chunk])[1..] == chunks[1..] + [chunk];
      ConcatSnoc(chunks[1..], chunk);
      AppendAssoc(chunks[0], Concat(chunks[1..]), chunk);
    }
  }

  /** The pieces between line feeds, as `text.split("\n")` returns them;
      defined from the end of the text, one character at a time, so that it
      does not mirror the front-to-back loop of the handler. */
  function Split(text: string): (segments: seq<string>)
    ensures |segments| >= 1
    decreases |text|
  {
    if text == [] then [[]] else Extend(Split(text[..|text| - 1]), text[|text| - 1])
  }

  /** The pieces of `text + [c]` from the pieces of `text`: a line feed
      opens a new empty piece, any other character extends the last one. */
  function Extend(segments: seq<string>, c: char): (r: seq<string>)
    requires |segments| >= 1
    ensures |r| >= 1
  {
    if c == NL then segments + [[]]
    else segments[..|segments| - 1] + [segments[|segments| - 1] + [c]]
  }

  lemma ExtendBehindFirst(line: string, segments: seq<string>, c: char)
    requires |segments| >= 1
    ensures Extend([line] + segments, c) == [line] + Extend(segments, c)
  {
    if c != NL {
      assert ([line] + segments)[..|segments|] == [line] + segments[..|segments| - 1];
    }
  }

  function TrimAll(segments: seq<string>): (r: seq<string>)
    ensures |r| == |segments|
    ensures forall i :: 0 <= i < |r| ==> r[i] == TrimEnd(segments[i])
    decreases |segments|
  {
    if segments == [] then [] else [TrimEnd(segments[0])] + TrimAll(segments[1..])
  }

  /** The lines a consumer should see for the whole text: every piece that a
      line feed terminates, trimmed, then the last piece if the stream ended
      and that piece is not empty. */
  function ReferenceLines(text: string, ended: bool): seq<string> {
    var segments := Split(text);
    var last := segments[|segments| - 1];
    TrimAll(segments[..|segments| - 1]) + (if ended && last != [] then [TrimEnd(last)] else [])
  }

  lemma {:induction false} SplitWithoutNewline(text: string)
    requires NL !in text
    ensures Split(text) == [text]
    decreases |text|
  {
    if text != [] {
      var init := text[..|text| - 1];
      SplitWithoutNewline(init);
      assert init + [text[|text| - 1]] == text;
    }
  }

  /** Splitting a text whose first line feed follows `line` yields `line`
      and then the pieces of what follows the line feed. */
  lemma {:induction false} SplitAfterFirstNewline(line: string, tail: string)
    requires NL !in line
    ensures Split(line + [NL] + tail) == [line] + Split(tail)
    decreases |tail|
  {
    var text := line + [NL] + tail;
    if tail == [] {
      assert text[..|text| - 1] == line;
      SplitWithoutNewline(line);
    } else {
      var shorter := tail[..|tail| - 1];
      var c := tail[|tail| - 1];
      assert text[..|text| - 1] == line + [NL] + shorter;
      assert text[|text| - 1] == c;
      assert Split(text) == Extend(Split(line + [NL] + shorter), c);
      SplitAfterFirstNewline(line, shorter);
      ExtendBehindFirst(line, Split(shorter), c);
      assert Split(tail) == Extend(Split(shorter), c);
    }
  }

  /** Draining a buffer whose first line feed follows `line` emits `line`
      trimmed and then drains what follows the line feed. */
  lemma DrainAfterFirstNewline(line: string, tail: string)
    requires NL !in line
    ensures Drain(line + [NL] + tail) == Drained([TrimEnd(line)] + Drain(tail).lines, Drain(tail).rest)
  {
    var text := line + [NL] + tail;
    assert text[..|line|] == line;
    IndexOfAt(text, NL, |line|);
    assert text[|line| + 1..] == tail;
  }

  /** The drained buffer agrees with the reference split of its text. */
  predicate DrainAgreesWithSplit(text: string) {
    var segments := Split(text);
    && Drain(text).lines == TrimAll(segments[..|segments| - 1])
    && Drain(text).rest == segments[|segments| - 1]
  }

  lemma TrimAllBehindLine(line: string, segments: seq<string>)
    requires |segments| >= 1
    ensures TrimAll(([line] + segments)[..|segments|]) == [TrimEnd(line)] + TrimAll(segments[..|segments| - 1])
  {
    var init := segments[..|segments| - 1];
    assert ([line] + segments)[..|segments|] == [line] + init;
    assert ([line] + init)[1..] == init;
  }

  lemma DrainAgreesBehindLine(line: string, tail: string)
    requires NL !in line
    requires DrainAgreesWithSplit(tail)
    ensures DrainAgreesWithSplit(line + [NL] + tail)
  {
    DrainAfterFirstNewline(line, tail);
    SplitAfterFirstNewline(line, tail);
    TrimAllBehindLine(line, Split(tail));
  }

  /** The handler's loop drains a buffer exactly as the reference splits it:
      one trimmed line per terminated piece, and the unterminated piece kept. */
  lemma {:induction false} DrainIsSplit(text: string)
    ensures DrainAgreesWithSplit(text)
    decreases |text|
  {
    var idx := IndexOf(text, NL);
    if idx == -1 {
      SplitWithoutNewline(text);
    } else {
      var line := text[..idx];
      var tail := text[idx + 1..];
      assert text == line + [NL] + tail;
      DrainIsSplit(tail);
      DrainAgreesBehindLine(line, tail);
    }
  }

  /** Draining `a + c` equals draining `a` and then draining what `a` left
      followed by `c`. */
  predicate DrainSplitsAt(a: string, c: string) {
    var first := Drain(a);
    var second := Drain(first.rest + c);
    Drain(a + c) == Drained(first.lines + second.lines, second.rest)
  }

  lemma DrainSplitsAtWithoutNewline(a: string, c: string)
    requires NL !in a
    ensures DrainSplitsAt(a, c)
  {
    assert Drain(a) == Drained([], a);
    assert [] + Drain(a + c).lines == Drain(a + c).lines;
  }

  lemma DrainSplitsBehindLine(line: string, tail: string, c: string)
    requires NL !in line
    requires DrainSplitsAt(tail, c)
    ensures DrainSplitsAt(line + [NL] + tail, c)
  {
    var a := line + [NL] + tail;
    assert a + c == line + [NL] + (tail + c);
    DrainAfterFirstNewline(line, tail);
    DrainAfterFirstNewline(line, tail + c);
    var first := Drain(tail);
    var second := Drain(first.rest + c);
    assert Drain(a + c).lines == [TrimEnd(line)] + (first.lines + second.lines);
    AppendAssoc([TrimEnd(line)], first.lines, second.lines);
  }

  /** The loop's output does not depend on where the text was cut. */
  lemma {:induction false} DrainAppend(a: string, c: string)
    ensures DrainSplitsAt(a, c)
    decreases |a|
  {
    var idx := IndexOf(a, NL);
    if idx == -1 {
      DrainSplitsAtWithoutNewline(a, c);
    } else {
      var line := a[..idx];
      var tail := a[idx + 1..];
      assert a == line + [NL] + tail;
      DrainAppend(tail, c);
      DrainSplitsBehindLine(line, tail, c);
    }
  }

  lemma DrainConcatFront(buffer: string, chunks: seq<string>)
    requires chunks != []
    ensures Drain(buffer + Concat(chunks)) == Drain((buffer + chunks[0]) + Concat(chunks[1..]))
  {
    assert buffer + Concat(chunks) == (buffer + chunks[0]) + Concat(chunks[1..]);
  }

  lemma FeedUnfold(buffer: string, chunks: seq<string>)
    requires NL !in buffer && chunks != []
    ensures var first := OnData(buffer, chunks[0]);
      var more := FeedChunks(first.rest, chunks[1..]);
      FeedChunks(buffer, chunks) == Drained(first.lines + more.lines, more.rest)
  {
  }

  lemma DrainAppendChunk(buffer: string, chunks: seq<string>)
    requires chunks != []
    ensures var first := OnData(buffer, chunks[0]);
      var second := Drain(first.rest + Concat(chunks[1..]));
      Drain(buffer + Concat(chunks)) == Drained(first.lines + second.lines, second.rest)
  {
    DrainAppend(buffer + chunks[0], Concat(chunks[1..]));
    DrainConcatFront(buffer, chunks);
  }

  lemma FeedOneChunk(buffer: string, chunks: seq<string>)
    requires NL !in buffer && chunks != []
    requires var first := OnData(buffer, chunks[0]);
      FeedChunks(first.rest, chunks[1..]) == Drain(first.rest + Concat(chunks[1..]))
    ensures FeedChunks(buffer, chunks) == Drain(buffer + Concat(chunks))
  {
    FeedUnfold(buffer, chunks);
    DrainAppendChunk(buffer, chunks);
  }

  /** Feeding chunks one data event at a time is draining their
      concatenation once. */
  lemma {:induction false} FeedIsDrainOfConcat(buffer: string, chunks: seq<string>)
    requires NL !in buffer
    ensures FeedChunks(buffer, chunks) == Drain(buffer + Concat(chunks))
    decreases |chunks|
  {
    if chunks == [] {
      assert buffer + Concat(chunks) == buffer;
    } else {
      FeedIsDrainOfConcat(OnData(buffer, chunks[0]).rest, chunks[1..]);
      FeedOneChunk(buffer, chunks);
    }
  }

  /** The stream's data events, from the empty buffer, drain the whole text. */
  lemma FeedFromEmpty(chunks: seq<string>)
    ensures FeedChunks("", chunks) == Drain(Concat(chunks))
  {
    FeedIsDrainOfConcat("", chunks);
    assert "" + Concat(chunks) == Concat(chunks);
  }

  /** What the consumer receives is the reference splitting of the whole
      stream text, however that text was cut into chunks. */
  lemma StreamLinesIsReference(chunks: seq<string>, source: Source, ended: bool)
    ensures StreamLines(Some(chunks), true, source, ended)
         == Tag(source, ReferenceLines(Concat(chunks), ended))
  {
    FeedFromEmpty(chunks);
    DrainIsSplit(Concat(chunks));
  }

  /** Chunk independence: two chunkings of the same text produce the same
      consumer calls. */
  lemma ChunkIndependence(chunks1: seq<string>, chunks2: seq<string>, source: Source, ended: bool)
    requires Concat(chunks1) == Concat(chunks2)
    ensures StreamLines(Some(chunks1), true, source, ended)
         == StreamLines(Some(chunks2), true, source, ended)
  {
    StreamLinesIsReference(chunks1, source, ended);
    StreamLinesIsReference(chunks2, source, ended);
  }

  /** After every data event the carried buffer holds no line feed, and the
      lines emitted so far are the reference lines of the text seen so far. */
  lemma BufferInvariant(chunks: seq<string>)
    ensures var fed := FeedChunks("", chunks);
      var segments := Split(Concat(chunks));
      && NL !in fed.rest
      && fed.rest == segments[|segments| - 1]
      && fed.lines == ReferenceLines(Concat(chunks), false)
  {
    FeedFromEmpty(chunks);
    DrainIsSplit(Concat(chunks));
  }

  /** The end-of-stream flush: a leftover of only white space still yields
      one (empty) line, while an empty leftover yields none. */
  lemma FlushOfBlankLeftover(text: string)
    requires text != [] && AllSpace(text) && NL !in text
    ensures ReferenceLines(text, true) == [[]]
    ensures ReferenceLines(text + [NL], true) == [[]]
  {
    SplitWithoutNewline(text);
    SplitAfterFirstNewline(text, []);
    assert text + [NL] + [] == text + [NL];
  }

  /** Lines written one after another, each followed by a line feed. */
  function JoinTerminated(lines: seq<string>): string
    decreases |lines|
  {
    if lines == [] then [] else lines[0] + [NL] + JoinTerminated(lines[1..])
  }

  predicate NoNewlines(lines: seq<string>) {
    forall i :: 0 <= i < |lines| ==> NL !in lines[i]
  }

  lemma JoinFront(lines: seq<string>, last: string)
    requires lines != []
    ensures JoinTerminated(lines) + last == lines[0] + [NL] + (JoinTerminated(lines[1..]) + last)
  {
  }

  lemma {:induction false} SplitOfJoin(lines: seq<string>, last: string)
    requires NoNewlines(lines) && NL !in last
    ensures Split(JoinTerminated(lines) + last) == lines + [last]
    decreases |lines|
  {
    if lines == [] {
      assert JoinTerminated(lines) + last == last;
      SplitWithoutNewline(last);
    } else {
      JoinFront(lines, last);
      assert NL !in lines[0];
      assert NoNewlines(lines[1..]) by {
        forall i | 0 <= i < |lines[1..]| ensures NL !in lines[1..][i] {
          assert lines[1..][i] == lines[i + 1];
        }
      }
      SplitOfJoin(lines[1..], last);
      SplitAfterFirstNewline(lines[0], JoinTerminated(lines[1..]) + last);
      assert [lines[0]] + (lines[1..] + [last]) == lines + [last];
    }
  }

  /** Lines joined with line feeds come back out of the splitter one by one,
      trimmed; the unterminated tail comes out only if the stream ended and
      the tail is not empty. So "a\nb\nc" gives a, b, c; "a\nb\n" gives
      exactly a and b; and "a\n  " gives a and then an empty line. */
  lemma ReferenceOfJoin(lines: seq<string>, last: string, ended: bool)
    requires NoNewlines(lines) && NL !in last
    ensures ReferenceLines(JoinTerminated(lines) + last, ended)
         == TrimAll(lines) + (if ended && last != [] then [TrimEnd(last)] else [])
  {
    SplitOfJoin(lines, last);
    assert (lines + [last])[..|lines|] == lines;
  }
}

=== FILE: login.dfy ===
/** `performLogin`: the provider's command-line flag, the argument vector
    the binary is run with, the effects of a login and how its outcome
    follows from the child's exit, and the login flow's own copy of the
    log line splitter, written as the imperative loop it is. */
module Login {
  import opened Wrappers
  import opened Text
  import opened Paths
  import opened Process
  import opened LineSplitter
  import opened Seqs
  import ProxyConfig

  const DefaultProvider: string := "gemini"
  const TempPrefix: string := "cliproxyapi-login-"

  /** The providers the login options name. */
  const Providers: seq<string> := ["gemini", "codex", "claude", "qwen", "iflow", "iflow-cookie"]

  /** The flag each provider's login is started with, at the same index. */
  const Flags: seq<string> := ["--login", "--codex-login", "--claude-login", "--qwen-login", "--iflow-login", "--iflow-cookie"]

  /** `providerFlag(provider)`: the flag of a known provider, and the
      gemini flag `--login` for anything else. */
  function ProviderFlag(provider: string): (flag: string)
    ensures flag in Flags
    ensures provider !in Providers ==> flag == "--login"
  {
    match provider
    case "gemini" => "--login"
    case "codex" => "--codex-login"
    case "claude" => "--claude-login"
    case "qwen" => "--qwen-login"
    case "iflow" => "--iflow-login"
    case "iflow-cookie" => "--iflow-cookie"
    case _ => "--login"
  }

  /** The provider a flag starts the login of: the inverse of the table. */
  function ProviderOfFlag(flag: string): (provider: Option<string>)
    ensures provider.Some? <==> flag in Flags
    ensures provider.Some? ==> provider.value in Providers
  {
    if flag == "--login" then Some("gemini")
    else if flag == "--codex-login" then Some("codex")
    else if flag == "--claude-login" then Some("claude")
    else if flag == "--qwen-login" then Some("qwen")
    else if flag == "--iflow-login" then Some("iflow")
    else if flag == "--iflow-cookie" then Some("iflow-cookie")
    else None
  }

  /** Each known provider gets a flag of its own, and the flag names it
      back; so two providers never share a flag. */
  lemma {:induction false} ProviderFlagRoundTrip(provider: string)
    requires provider in Providers
    ensures ProviderOfFlag(ProviderFlag(provider)) == Some(provider)
  {
    var i :| 0 <= i < |Providers| && Providers[i] == provider;
    if i == 0 {} else if i == 1 {} else if i == 2 {} else if i == 3 {} else if i == 4 {} else {}
  }

  lemma ProviderFlagInjective(p1: string, p2: string)
    requires p1 in Providers && p2 in Providers
    requires ProviderFlag(p1) == ProviderFlag(p2)
    ensures p1 == p2
  {
    ProviderFlagRoundTrip(p1);
    ProviderFlagRoundTrip(p2);
  }

  /** An omitted provider is gemini, so a login without one runs `--login`,
      as does any provider the table does not know. */
  lemma DefaultProviderFlag(provider: Option<string>)
    requires provider.None? || provider.value !in Providers
    ensures ProviderFlag(provider.GetOr(DefaultProvider)) == "--login"
  {
  }

  const NoBrowserFlag: string := "--no-browser"
  const ProjectIdFlag: string := "--project_id"

  /** `noBrowser` and `projectId` as JavaScript truth values. */
  predicate NoBrowser(noBrowser: Option<bool>) {
    noBrowser == Some(true)
  }

  predicate HasProjectId(projectId: Option<string>) {
    projectId.Some? && projectId.value != ""
  }

  /** The argument vector: the flag and the config, then `--no-browser`
      when asked for, then the project id when one is given. */
  function LoginArgs(flag: string, configPath: string, noBrowser: Option<bool>, projectId: Option<string>)
    : (args: seq<string>)
    ensures 3 <= |args| <= 6
    ensures args[..3] == [flag, "--config", configPath]
    ensures NoBrowser(noBrowser) <==> |args| in {4, 6}
    ensures NoBrowser(noBrowser) ==> args[3] == NoBrowserFlag
    ensures HasProjectId(projectId) <==> |args| >= 5
    ensures HasProjectId(projectId) ==> args[|args| - 2..] == [ProjectIdFlag, projectId.value]
  {
    [flag, "--config", configPath]
      + (if NoBrowser(noBrowser) then [NoBrowserFlag] else [])
      + (if HasProjectId(projectId) then [ProjectIdFlag, projectId.value] else [])
  }

  /** What an argument vector asks of the binary. */
  datatype LoginCall = LoginCall(flag: string, configPath: string, noBrowser: bool, projectId: Option<string>)

  /** Reads an argument vector back, by its length. */
  function ParseLoginArgs(args: seq<string>): Option<LoginCall> {
    if |args| < 3 || args[1] != "--config" then None
    else if |args| == 3 then Some(LoginCall(args[0], args[2], false, None))
    else if |args| == 4 then
      if args[3] == NoBrowserFlag then Some(LoginCall(args[0], args[2], true, None)) else None
    else if |args| == 5 then
      if args[3] == ProjectIdFlag && args[4] != "" then Some(LoginCall(args[0], args[2], false, Some(args[4]))) else None
    else if |args| == 6 then
      if args[3] == NoBrowserFlag && args[4] == ProjectIdFlag && args[5] != ""
      then Some(LoginCall(args[0], args[2], true, Some(args[5]))) else None
    else None
  }

  /** The argument vector says exactly what was asked: the flag, the
      config, whether the browser stays closed, and the project id when it
      is not empty. */
  lemma LoginArgsRoundTrip(flag: string, configPath: string, noBrowser: Option<bool>, projectId: Option<string>)
    ensures ParseLoginArgs(LoginArgs(flag, configPath, noBrowser, projectId))
         == Some(LoginCall(flag, configPath, NoBrowser(noBrowser), if HasProjectId(projectId) then projectId else None))
  {
    var args := LoginArgs(flag, configPath, noBrowser, projectId);
    assert args[1] == args[..3][1];
  }

  /** The options of `performLogin` that decide its behaviour. */
  datatype LoginOptions = LoginOptions(
    authDir: string,
    version: Option<string>,
    binaryPath: Option<string>,
    provider: Option<string>,
    noBrowser: Option<bool>,
    projectId: Option<string>)

  /** The outside world, as far as a login depends on it. */
  datatype LoginHost = LoginHost(
    tmpRoot: string,
    tempSuffix: string,
    ensureBinary: string -> Result<string, string>)

  datatype LoginError =
    | BinaryUnavailable(reason: string)
    | LoginExited(code: int)
    | SpawnFailed
    | SpawnThrew

  datatype LoginRun = LoginRun(effects: seq<Effect>, result: Result<(), LoginError>)

  /** The config file a login writes. */
  function LoginConfigPath(host: LoginHost): string {
    TempConfigPath(TempDir(host.tmpRoot, TempPrefix, host.tempSuffix))
  }

  /** `performLogin(options)`: find the binary, create the auth directory,
      write a config holding only it with port 0, spawn the binary, and
      settle on the child's exit. */
  function PerformLogin(opts: LoginOptions, host: LoginHost, exit: ExitEvent): (run: LoginRun)
    // a missing binary fails before anything is touched, and only then is nothing done
    ensures run.effects == [] <==> run.result.Failure? && run.result.error.BinaryUnavailable?
    ensures run.effects == [] <==> ResolveBinary(opts.binaryPath, opts.version, host.ensureBinary).Failure?
    // otherwise the auth directory is created and the login config written
    ensures run.effects != [] ==>
      && |run.effects| >= 2
      && run.effects[0] == MakeDir(opts.authDir)
      && run.effects[1] == WriteConfig(LoginConfigPath(host), ProxyConfig.OnlyAuthDir(opts.authDir), 0)
    // then a binary `spawn` accepts is spawned with the login's arguments
    ensures ResolveBinary(opts.binaryPath, opts.version, host.ensureBinary).Success? && !SpawnThrows(ResolveBinary(opts.binaryPath, opts.version, host.ensureBinary).value) ==>
      && |run.effects| >= 3
      && run.effects[2].Spawn?
      && run.effects[2].binary == ResolveBinary(opts.binaryPath, opts.version, host.ensureBinary).value
      && ParseLoginArgs(run.effects[2].argv) == Some(LoginCall(
           ProviderFlag(opts.provider.GetOr(DefaultProvider)), LoginConfigPath(host),
           NoBrowser(opts.noBrowser), if HasProjectId(opts.projectId) then opts.projectId else None))
    // and one it refuses rejects at once, with nothing to wait for or clean up
    ensures ResolveBinary(opts.binaryPath, opts.version, host.ensureBinary).Success? && SpawnThrows(ResolveBinary(opts.binaryPath, opts.version, host.ensureBinary).value) ==>
      run == LoginRun([MakeDir(opts.authDir), WriteConfig(LoginConfigPath(host), ProxyConfig.OnlyAuthDir(opts.authDir), 0)],
                      Failure(SpawnThrew))
    // the login succeeds exactly when a child was spawned and exits with code 0
    ensures run.result.Success? <==> (ResolveBinary(opts.binaryPath, opts.version, host.ensureBinary).Success? && !SpawnThrows(ResolveBinary(opts.binaryPath, opts.version, host.ensureBinary).value)) && exit == Exit(Some(0))
    // any other exit rejects with its code, or -1 after a signal
    ensures ResolveBinary(opts.binaryPath, opts.version, host.ensureBinary).Success? && !SpawnThrows(ResolveBinary(opts.binaryPath, opts.version, host.ensureBinary).value) && exit.Exit? && exit.code != Some(0) ==>
      run.result == Failure(LoginExited(ExitCode(exit.code)))
    // every exit, whatever its code, removes the temporary directory
    ensures ResolveBinary(opts.binaryPath, opts.version, host.ensureBinary).Success? && !SpawnThrows(ResolveBinary(opts.binaryPath, opts.version, host.ensureBinary).value) && exit.Exit? ==>
      |run.effects| == 4 && run.effects[3] == Cleanup(TempDir(host.tmpRoot, TempPrefix, host.tempSuffix))
    // a spawn error rejects with the spawn as the last effect, and cleans nothing up
    ensures ResolveBinary(opts.binaryPath, opts.version, host.ensureBinary).Success? && !SpawnThrows(ResolveBinary(opts.binaryPath, opts.version, host.ensureBinary).value) && exit.SpawnError? ==> |run.effects| == 3 && run.result == Failure(SpawnFailed)
    ensures exit.SpawnError? ==> forall i :: 0 <= i < |run.effects| ==> !run.effects[i].Cleanup?
    ensures !(ResolveBinary(opts.binaryPath, opts.version, host.ensureBinary).Success? && !SpawnThrows(ResolveBinary(opts.binaryPath, opts.version, host.ensureBinary).value)) ==> forall i :: 0 <= i < |run.effects| ==> !run.effects[i].Cleanup?
    // a login never reports status events
    ensures Statuses(run.effects) == []
  {
    match ResolveBinary(opts.binaryPath, opts.version, host.ensureBinary)
    case Failure(reason) => LoginRun([], Failure(BinaryUnavailable(reason)))
    case Success(path) => WithBinary(opts, host, path, exit)
  }

  /** A login once the binary is found: the setup, then either the wait on
      the child or, for a binary `spawn` refuses, an immediate rejection. */
  function WithBinary(opts: LoginOptions, host: LoginHost, binary: string, exit: ExitEvent): (run: LoginRun)
    ensures SpawnThrows(binary) ==>
      run == LoginRun([MakeDir(opts.authDir), WriteConfig(LoginConfigPath(host), ProxyConfig.OnlyAuthDir(opts.authDir), 0)],
                      Failure(SpawnThrew))
    ensures !SpawnThrows(binary) ==> run == Await(Setup(opts, host, binary), host, exit)
    ensures Statuses(run.effects) == []
  {
    if SpawnThrows(binary) then
      var write := WriteConfig(LoginConfigPath(host), ProxyConfig.OnlyAuthDir(opts.authDir), 0);
      StatusesCons(write, []);
      StatusesCons(MakeDir(opts.authDir), [write]);
      LoginRun([MakeDir(opts.authDir), write], Failure(SpawnThrew))
    else
      Await(Setup(opts, host, binary), host, exit)
  }

  /** How a spawned login settles: every exit removes the temporary
      directory and succeeds exactly for code 0; a spawn error rejects
      without cleaning up. */
  function Await(setup: seq<Effect>, host: LoginHost, exit: ExitEvent): (run: LoginRun)
    ensures exit.SpawnError? ==> run == LoginRun(setup, Failure(SpawnFailed))
    ensures exit.Exit? ==> run.effects == setup + [Cleanup(TempDir(host.tmpRoot, TempPrefix, host.tempSuffix))]
    ensures run.result.Success? <==> exit == Exit(Some(0))
    ensures exit.Exit? && exit.code != Some(0) ==> run.result == Failure(LoginExited(ExitCode(exit.code)))
    ensures Statuses(run.effects) == Statuses(setup)
  {
    match exit
    case SpawnError => LoginRun(setup, Failure(SpawnFailed))
    case Exit(code) =>
      var cleanup := Cleanup(Dirname(LoginConfigPath(host)));
      CleanupTargetsTempDir(host.tmpRoot, TempPrefix, host.tempSuffix);
      StatusesAppend(setup, [cleanup]);
      StatusesCons(cleanup, []);
      assert Statuses(setup + [cleanup]) == Statuses(setup) + [];
      LoginRun(setup + [cleanup], if code == Some(0) then Success(()) else Failure(LoginExited(ExitCode(code))))
  }

  /** What a login does before it waits: create the auth directory, write
      the login config, spawn the binary with the login's arguments. */
  function Setup(opts: LoginOptions, host: LoginHost, binary: string): (setup: seq<Effect>)
    ensures |setup| == 3 && Statuses(setup) == []
    ensures setup[0] == MakeDir(opts.authDir)
    ensures setup[1] == WriteConfig(LoginConfigPath(host), ProxyConfig.OnlyAuthDir(opts.authDir), 0)
    ensures setup[2].Spawn? && setup[2].binary == binary
    ensures ParseLoginArgs(setup[2].argv) == Some(LoginCall(
      ProviderFlag(opts.provider.GetOr(DefaultProvider)), LoginConfigPath(host),
      NoBrowser(opts.noBrowser), if HasProjectId(opts.projectId) then opts.projectId else None))
  {
    var flag := ProviderFlag(opts.provider.GetOr(DefaultProvider));
    var args := LoginArgs(flag, LoginConfigPath(host), opts.noBrowser, opts.projectId);
    LoginArgsRoundTrip(flag, LoginConfigPath(host), opts.noBrowser, opts.projectId);
    var setup := [MakeDir(opts.authDir), WriteConfig(LoginConfigPath(host), ProxyConfig.OnlyAuthDir(opts.authDir), 0), Spawn(binary, args)];
    SetupReportsNothing(setup);
    setup
  }

  /** The config a login writes holds the port 0 and the auth directory,
      and nothing else. */
  lemma LoginDocument(opts: LoginOptions, host: LoginHost, exit: ExitEvent, homeDir: string)
    requires PerformLogin(opts, host, exit).effects != []
    ensures var w := PerformLogin(opts, host, exit).effects[1];
      ProxyConfig.BuildDocument(w.config, w.port, homeDir)
      == map["port" := ProxyConfig.Num(0), "auth-dir" := ProxyConfig.Str(opts.authDir)]
  {
    ProxyConfig.OnlyAuthDirDocument(opts.authDir, 0, homeDir);
  }

  lemma SetupReportsNothing(setup: seq<Effect>)
    requires |setup| == 3 && !setup[0].Report? && !setup[1].Report? && !setup[2].Report?
    ensures Statuses(setup) == []
  {
    StatusesCons(setup[2], []);
    assert setup[1..][1..] == [setup[2]] + [];
    StatusesCons(setup[1], setup[1..][1..]);
    assert setup[1..] == [setup[1]] + setup[1..][1..];
    StatusesCons(setup[0], setup[1..]);
    assert setup == [setup[0]] + setup[1..];
  }

  // ---------------------------------------------------------------------
  // The login flow's copy of the log line splitter, as the loops it runs.

  /** One `data` event: append the chunk, then cut lines off the front of
      the buffer while it holds a line feed, emitting each one trimmed. */
  method DataEvent(buffer: string, chunk: string, source: Source) returns (emitted: seq<LogLine>, rest: string)
    ensures rest == Drain(buffer + chunk).rest
    ensures emitted == Tag(source, Drain(buffer + chunk).lines)
  {
    var b := buffer + chunk;
    ghost var target := Drain(b);
    ghost var done: seq<string> := [];
    emitted := [];
    var idx := IndexOf(b, NL);
    while idx != -1
      invariant idx == IndexOf(b, NL)
      invariant target.lines == done + Drain(b).lines && target.rest == Drain(b).rest
      invariant emitted == Tag(source, done)
      decreases |b|
    {
      var line := TrimEnd(b[..idx]);
      CutLine(b, idx, done);
      TagSnoc(source, done, line);
      b := b[idx + 1..];
      emitted := emitted + [LogLine(source, line)];
      done := done + [line];
      idx := IndexOf(b, NL);
    }
    assert done + [] == done;
    rest := b;
  }

  /** Cutting the first line off the buffer moves it from the lines still
      to come to the lines emitted. */
  lemma CutLine(b: string, idx: int, done: seq<string>)
    requires idx == IndexOf(b, NL) && idx != -1
    ensures done + Drain(b).lines == (done + [TrimEnd(b[..idx])]) + Drain(b[idx + 1..]).lines
    ensures Drain(b).rest == Drain(b[idx + 1..]).rest
  {
    var line, tail := b[..idx], b[idx + 1..];
    assert b == line + [NL] + tail;
    DrainAfterFirstNewline(line, tail);
    AppendAssoc(done, [TrimEnd(line)], Drain(tail).lines);
  }

  /** The login's `streamLines`: the same consumer calls as the runner's,
      for every stream, chunking and consumer. */
  method PipeLines(stream: Option<seq<string>>, hasConsumer: bool, source: Source, ended: bool)
    returns (out: seq<LogLine>)
    ensures out == StreamLines(stream, hasConsumer, source, ended)
  {
    if stream.None? || !hasConsumer {
      return [];
    }
    var chunks := stream.value;
    var buffer := "";
    ghost var lines: seq<string> := [];
    out := [];
    var k := 0;
    while k < |chunks|
      invariant 0 <= k <= |chunks|
      invariant Drain(Concat(chunks[..k])) == Drained(lines, buffer)
      invariant out == Tag(source, lines)
    {
      var emitted, rest := DataEvent(buffer, chunks[k], source);
      FeedStep(chunks, k, lines, buffer);
      TagAppend(source, lines, Drain(buffer + chunks[k]).lines);
      out := out + emitted;
      lines := lines + Drain(buffer + chunks[k]).lines;
      buffer := rest;
      k := k + 1;
    }
    if ended && |buffer| > 0 {
      out := out + [LogLine(source, TrimEnd(buffer))];
    }
    FeedWhole(chunks, lines, buffer, source, ended);
  }

  /** Draining one more chunk continues from the buffer the previous ones left. */
  lemma FeedStep(chunks: seq<string>, k: nat, lines: seq<string>, buffer: string)
    requires k < |chunks|
    requires Drain(Concat(chunks[..k])) == Drained(lines, buffer)
    ensures Drain(Concat(chunks[..k + 1]))
         == Drained(lines + Drain(buffer + chunks[k]).lines, Drain(buffer + chunks[k]).rest)
  {
    assert chunks[..k + 1] == chunks[..k] + [chunks[k]];
    ConcatSnoc(chunks[..k], chunks[k]);
    DrainAppend(Concat(chunks[..k]), chunks[k]);
  }

  /** After the last chunk the loop has drained the whole text, which is
      what the fold over the data events computes. */
  lemma FeedWhole(chunks: seq<string>, lines: seq<string>, buffer: string, source: Source, ended: bool)
    requires Drain(Concat(chunks[..|chunks|])) == Drained(lines, buffer)
    ensures StreamLines(Some(chunks), true, source, ended)
         == Tag(source, lines) + (if ended && |buffer| > 0 then [LogLine(source, TrimEnd(buffer))] else [])
  {
    FoldIsWholeDrain(chunks, lines, buffer);
    EndEvent(lines, buffer, source, ended);
  }

  lemma FoldIsWholeDrain(chunks: seq<string>, lines: seq<string>, buffer: string)
    requires Drain(Concat(chunks[..|chunks|])) == Drained(lines, buffer)
    ensures FeedChunks("", chunks) == Drained(lines, buffer)
  {
    assert chunks[..|chunks|] == chunks;
    FeedFromEmpty(chunks);
  }

  /** The `end` event adds the trimmed leftover, when there is one. */
  lemma EndEvent(lines: seq<string>, buffer: string, source: Source, ended: bool)
    ensures Tag(source, lines + (if ended then OnEnd(buffer) else []))
         == Tag(source, lines) + (if ended && |buffer| > 0 then [LogLine(source, TrimEnd(buffer))] else [])
  {
    var tail := if ended then OnEnd(buffer) else [];
    TagAppend(source, lines, tail);
    assert Tag(source, tail) == (if ended && |buffer| > 0 then [LogLine(source, TrimEnd(buffer))] else []);
  }

  /** A given `binaryPath` of `""` is kept, and `spawn` refuses it: the login
      rejects after the directory and the config write, whatever the exit. */
  lemma EmptyBinaryPathRejects(opts: LoginOptions, host: LoginHost, exit: ExitEvent)
    requires opts.binaryPath == Some("")
    ensures var run := PerformLogin(opts, host, exit);
      && |run.effects| == 2
      && run.result == Failure(SpawnThrew)
  {
  }
}

=== FILE: paths.dfy ===
/** POSIX-style file paths, the part of Node's `path` module the core uses:
    `join` of a directory and one name, `dirname`, and `resolve` of a
    directory and one segment. Normalisation of `.`/`..` and of repeated
    separators is not modelled. */
module Paths {
  import opened Text

  const Sep: char := '/'

  /** `path.join(dir, name)` for a name without separators. */
  function Join(dir: string, name: string): string {
    dir + [Sep] + name
  }

  /** `path.dirname(p)`: everything before the last separator; `/` when the
      only separator leads the path, `.` when there is none. */
  function Dirname(p: string): string {
    var i := LastIndexOf(p, Sep);
    if i == -1 then "." else if i == 0 then "/" else p[..i]
  }

  /** The directory a file was joined into is recovered by `dirname`: what
      lets a cleanup that only knows the config file's path remove the
      temporary directory it was created in. */
  lemma DirnameOfJoin(dir: string, name: string)
    requires dir != []
    requires Sep !in name
    ensures Dirname(Join(dir, name)) == dir
  {
    var p := Join(dir, name);
    var i := LastIndexOf(p, Sep);
    assert p[|dir|] == Sep;
    assert p[|dir| + 1..] == name;
    assert i == |dir|;
    assert p[..i] == dir;
  }

  /** A joined path ends with the separator and the name. */
  lemma JoinEndsWithName(dir: string, name: string)
    ensures EndsWith(Join(dir, name), [Sep] + name)
  {
    assert Join(dir, name) == dir + ([Sep] + name);
    EndsWithConcat(dir, [Sep] + name);
  }

  predicate IsAbsolute(p: string) {
    |p| > 0 && p[0] == Sep
  }

  /** `path.resolve(dir, segment)` evaluated in working directory `cwd`. */
  function Resolve(cwd: string, dir: string, segment: string): (r: string)
    ensures IsAbsolute(dir) ==> StartsWith(r, dir)
    ensures !IsAbsolute(dir) ==> StartsWith(r, cwd)
    ensures EndsWith(r, [Sep] + segment)
  {
    EndsWithConcat(if IsAbsolute(dir) then dir else Join(cwd, dir), [Sep] + segment);
    if IsAbsolute(dir) then Join(dir, segment) else Join(Join(cwd, dir), segment)
  }
}

=== FILE: platform.dfy ===
/** Platform normalisation and the release asset a platform downloads:
    `resolvePlatform` and `buildAssetInfo`. The host's platform and
    architecture strings are inputs. */
module Platform {
  import opened Wrappers
  import opened Text

  datatype Os = Linux | Darwin | Windows
  datatype Arch = Amd64 | Arm64 | I386

  function OsName(os: Os): string {
    match os
    case Linux => "linux"
    case Darwin => "darwin"
    case Windows => "windows"
  }

  function ArchName(arch: Arch): string {
    match arch
    case Amd64 => "amd64"
    case Arm64 => "arm64"
    case I386 => "386"
  }

  /** The platform table: Node platform names the release has a build for. */
  const OsTable: map<string, Os> := map[
    "linux" := Linux, "darwin" := Darwin, "win32" := Windows, "aix" := Linux,
    "freebsd" := Linux, "openbsd" := Linux, "sunos" := Linux, "android" := Linux,
    "haiku" := Linux, "cygwin" := Windows, "netbsd" := Linux]

  /** The architecture table. */
  const ArchTable: map<string, Arch> := map["x64" := Amd64, "amd64" := Amd64, "arm64" := Arm64, "ia32" := I386]

  /** The platform normalised through the table, Linux when it is not listed. */
  function ResolveOs(platform: string): (os: Os)
    ensures os == Windows <==> platform == "win32" || platform == "cygwin"
    ensures os == Darwin <==> platform == "darwin"
  {
    if platform in OsTable then OsTable[platform] else Linux
  }

  /** The architecture normalised through the table, amd64 when it is not listed. */
  function ResolveArch(arch: string): (a: Arch)
    ensures a == Arm64 <==> arch == "arm64"
    ensures a == I386 <==> arch == "ia32"
  {
    if arch in ArchTable then ArchTable[arch] else Amd64
  }

  /** Every Unix-like platform in the table, and every platform not in it,
      resolves to Linux. */
  lemma LinuxFamily(platform: string)
    requires platform in {"linux", "aix", "freebsd", "openbsd", "netbsd", "sunos", "android", "haiku"}
             || platform !in OsTable
    ensures ResolveOs(platform) == Linux
  {
  }

  /** `resolvePlatform()` for the given host platform and architecture. */
  function ResolvePlatform(platform: string, arch: string): (Os, Arch) {
    (ResolveOs(platform), ResolveArch(arch))
  }

  /** Normalisation fixes the release's own names for linux, darwin,
      amd64 and arm64, but not for the others: `windows` and `386` are not
      Node names and fall back to linux and amd64. */
  lemma ResolveOwnNames(os: Os, arch: Arch)
    ensures arch != I386 ==> ResolveArch(ArchName(arch)) == arch
    ensures os != Windows ==> ResolveOs(OsName(os)) == os
    ensures ResolveOs(OsName(Windows)) == Linux && ResolveArch(ArchName(I386)) == Amd64
  {
  }

  /** The version without one leading `v`. */
  function StripLeadingV(version: string): (s: string)
    ensures |version| > 0 && version[0] == 'v' ==> version == ['v'] + s
    ensures !(|version| > 0 && version[0] == 'v') ==> s == version
  {
    if |version| > 0 && version[0] == 'v' then version[1..] else version
  }

  /** Exactly one `v` goes: `vv1` becomes `v1`. */
  lemma StripOnlyOneV(rest: string)
    ensures StripLeadingV("v" + rest) == rest
  {
  }

  datatype AssetInfo = AssetInfo(url: string, archiveName: string, isZip: bool)

  const ReleasePrefix: string := "https://github.com/router-for-me/CLIProxyAPI/releases/download/"
  const ArchivePrefix: string := "CLIProxyAPI_"
  const ZipExt: string := ".zip"
  const TarGzExt: string := ".tar.gz"

  function Extension(isZip: bool): string {
    if isZip then ZipExt else TarGzExt
  }

  /** `buildAssetInfo(version, os, arch)`: a zip archive exactly for Windows,
      an archive named from the stripped version, the platform and the
      architecture, and a URL under the release tag, which is the version
      as given. */
  function BuildAssetInfo(version: string, os: Os, arch: Arch): (a: AssetInfo)
    ensures a.isZip <==> os == Windows
    ensures StartsWith(a.archiveName, ArchivePrefix) && EndsWith(a.archiveName, Extension(a.isZip))
    ensures StartsWith(a.url, ReleasePrefix + version + "/")
    ensures EndsWith(a.url, "/" + a.archiveName)
    ensures a.url == ReleasePrefix + version + "/" + a.archiveName
  {
    var archiveName := ArchiveName(StripLeadingV(version), os, arch);
    Framed(ArchivePrefix, ArchiveBody(StripLeadingV(version), os, arch), Extension(os == Windows));
    UrlShape(ReleasePrefix + version, archiveName);
    AssetInfo(ReleasePrefix + version + "/" + archiveName, archiveName, os == Windows)
  }

  /** The archive name for a version already stripped of its `v`. */
  function ArchiveName(v: string, os: Os, arch: Arch): string {
    ArchivePrefix + ArchiveBody(v, os, arch) + Extension(os == Windows)
  }

  function ArchiveBody(v: string, os: Os, arch: Arch): string {
    v + "_" + OsName(os) + "_" + ArchName(arch)
  }

  /** `b` sits between `a` and `c` in `a + b + c`. */
  lemma Framed(a: string, b: string, c: string)
    ensures StartsWith(a + b + c, a) && EndsWith(a + b + c, c)
    ensures (a + b + c)[|a|..|a + b + c| - |c|] == b
  {
    EndsWithConcat(a + b, c);
  }

  lemma UrlShape(base: string, name: string)
    ensures StartsWith(base + "/" + name, base + "/")
    ensures EndsWith(base + "/" + name, "/" + name)
  {
    assert base + "/" + name == base + ("/" + name);
    EndsWithConcat(base, "/" + name);
  }

  /** The inverse of the OS and architecture names. */
  function ParseOs(s: string): (r: Option<Os>)
    ensures r.Some? ==> OsName(r.value) == s
  {
    if s == "linux" then Some(Linux) else if s == "darwin" then Some(Darwin)
    else if s == "windows" then Some(Windows) else None
  }

  function ParseArch(s: string): (r: Option<Arch>)
    ensures r.Some? ==> ArchName(r.value) == s
  {
    if s == "amd64" then Some(Amd64) else if s == "arm64" then Some(Arm64)
    else if s == "386" then Some(I386) else None
  }

  lemma ParseNames(os: Os, arch: Arch)
    ensures ParseOs(OsName(os)) == Some(os)
    ensures ParseArch(ArchName(arch)) == Some(arch)
  {
  }

  /** What an archive name says: the stripped version, the platform, the
      architecture and whether it is a zip. */
  datatype ArchiveParts = ArchiveParts(version: string, os: Os, arch: Arch, isZip: bool)

  /** Splits `s` at its last `_`. */
  function SplitLastUnderscore(s: string): Option<(string, string)> {
    var i := LastIndexOf(s, '_');
    if i == -1 then None else Some((s[..i], s[i + 1..]))
  }

  lemma SplitLastUnderscoreJoin(a: string, b: string)
    requires '_' !in b
    ensures SplitLastUnderscore(a + "_" + b) == Some((a, b))
  {
    LastIndexOfJoin(a, '_', b);
    var s := a + "_" + b;
    assert s[..|a|] == a;
    assert s[|a| + 1..] == b;
  }

  /** Reads the part between the prefix and the extension: from the end,
      the architecture and the platform; what remains is the version, which
      may itself contain `_`. */
  function ParseBody(body: string, isZip: bool): Option<ArchiveParts> {
    match SplitLastUnderscore(body)
    case None => None
    case Some((front, archPart)) =>
      match SplitLastUnderscore(front)
      case None => None
      case Some((version, osPart)) =>
        match (ParseOs(osPart), ParseArch(archPart))
        case (Some(os), Some(arch)) => Some(ArchiveParts(version, os, arch, isZip))
        case _ => None
  }

  /** Reads an archive name back: the prefix and the extension, then the
      body between them. */
  function ParseArchiveName(name: string): (r: Option<ArchiveParts>)
    ensures r.Some? ==> EndsWith(name, Extension(r.value.isZip))
  {
    var isZip := EndsWith(name, ZipExt);
    var ext := Extension(isZip);
    if !StartsWith(name, ArchivePrefix) || !EndsWith(name, ext) || |name| < |ArchivePrefix| + |ext| then None
    else ParseBody(name[|ArchivePrefix|..|name| - |ext|], isZip)
  }

  lemma ParseBodyJoin(version: string, os: Os, arch: Arch, isZip: bool)
    ensures ParseBody(version + "_" + OsName(os) + "_" + ArchName(arch), isZip)
         == Some(ArchiveParts(version, os, arch, isZip))
  {
    NamesHaveNoUnderscore(os, arch);
    SplitLastUnderscoreJoin(version + "_" + OsName(os), ArchName(arch));
    SplitLastUnderscoreJoin(version, OsName(os));
    ParseNames(os, arch);
  }

  lemma ParseFramed(body: string, isZip: bool)
    ensures ParseArchiveName(ArchivePrefix + body + Extension(isZip)) == ParseBody(body, isZip)
  {
    var ext := Extension(isZip);
    var name := ArchivePrefix + body + ext;
    Framed(ArchivePrefix, body, ext);
    if !isZip { ZipIsNotTarGz(ArchivePrefix + body); }
  }

  lemma ZipIsNotTarGz(s: string)
    ensures !EndsWith(s + TarGzExt, ZipExt)
  {
    assert (s + TarGzExt)[|s + TarGzExt| - 1] == 'z';
  }

  lemma NamesHaveNoUnderscore(os: Os, arch: Arch)
    ensures '_' !in OsName(os) && '_' !in ArchName(arch)
  {
  }

  /** The archive name carries everything it was built from: parsing it
      gives back the stripped version, the platform, the architecture and
      the archive kind. */
  lemma ArchiveNameRoundTrip(version: string, os: Os, arch: Arch)
    ensures ParseArchiveName(BuildAssetInfo(version, os, arch).archiveName)
         == Some(ArchiveParts(StripLeadingV(version), os, arch, os == Windows))
  {
    var v := StripLeadingV(version);
    ParseFramed(ArchiveBody(v, os, arch), os == Windows);
    ParseBodyJoin(v, os, arch, os == Windows);
  }
}

=== FILE: ports.dfy ===
/** `findOpenPort`: the preferred port when it is usable, otherwise one the
    system allocates. Whether a port can be bound is an oracle; the
    outcome of listening on port 0 is an input. */
module Ports {
  import opened Wrappers

  /** What listening on port 0 gives: the bound address's port, or the
      server's error event. */
  datatype Listen = Bound(port: int) | ListenError

  /** Why no port could be had: listening on port 0 failed or gave no
      port, or the preferred port is not one `listen` accepts, which makes
      it throw while the availability probe is being set up. */
  datatype PortError = ListenFailed | NoPortAllocated | BadPort

  const MaxPort: int := 0xFFFF

  /** The ports `listen` accepts: the integers 0 through 65535. */
  predicate ValidPort(port: int) {
    0 <= port <= MaxPort
  }

  /** A port is truthy when it is given and not zero. */
  predicate Truthy(port: Option<int>) {
    port.Some? && port.value != 0
  }

  /** The system-allocated port: a bound address with a truthy port, or
      the allocation fails. */
  function Ephemeral(listen: Listen): (r: Result<int, PortError>)
    ensures r.Success? ==> r.value != 0
    ensures r.Success? <==> listen.Bound? && listen.port != 0
  {
    match listen
    case ListenError => Failure(ListenFailed)
    case Bound(p) => if p != 0 then Success(p) else Failure(NoPortAllocated)
  }

  /** `findOpenPort(preferred)`: a truthy preferred port is probed and used
      when available; otherwise, or when it is taken, the system allocates
      one. A truthy preferred port that `listen` refuses rejects the whole
      call instead of being reported as taken. */
  function FindOpenPort(preferred: Option<int>, available: int -> bool, listen: Listen): (r: Result<int, PortError>)
    ensures Truthy(preferred) && !ValidPort(preferred.value) ==> r == Failure(BadPort)
    ensures Truthy(preferred) && ValidPort(preferred.value) && available(preferred.value) ==> r == Success(preferred.value)
    ensures !Truthy(preferred) || (ValidPort(preferred.value) && !available(preferred.value)) ==> r == Ephemeral(listen)
    ensures r.Success? ==> r.value != 0
  {
    if !Truthy(preferred) then Ephemeral(listen)
    else if !ValidPort(preferred.value) then Failure(BadPort)
    else if available(preferred.value) then Success(preferred.value)
    else Ephemeral(listen)
  }

  /** An absent or zero preferred port is never probed: the result does
      not depend on availability at all. */
  lemma FalsyPreferredSkipsProbe(preferred: Option<int>, a1: int -> bool, a2: int -> bool, listen: Listen)
    requires !Truthy(preferred)
    ensures FindOpenPort(preferred, a1, listen) == FindOpenPort(preferred, a2, listen)
  {
  }

  /** The preferred port is returned exactly when it is truthy, accepted
      by `listen` and available, unless the system happens to allocate the
      same number. */
  lemma PreferredIffAvailable(preferred: int, available: int -> bool, listen: Listen)
    requires preferred != 0
    requires !(listen.Bound? && listen.port == preferred)
    ensures FindOpenPort(Some(preferred), available, listen) == Success(preferred)
      <==> ValidPort(preferred) && available(preferred)
  {
  }
}

=== FILE: process.dfy ===
/** What the supervisor does to the outside world, as values: the effects
    a start, a stop or a login performs, the status events reported to the
    caller, and how a child process ends. Both the runner and the login
    flow use these. */
module Process {
  import opened Wrappers
  import opened Paths
  import ProxyConfig

  /** The status events reported to `onStatus`. The code never emits `Error`;
      it is part of the enumeration only. */
  datatype Status = Starting | Ready | Exited(code: int) | Error

  /** How the child's exit promise settles: an `exit` event with its code
      (None when the child was ended by a signal), or the spawn `error` event. */
  datatype ExitEvent = Exit(code: Option<int>) | SpawnError

  /** `code ?? -1`: the code reported for an exit event. */
  function ExitCode(code: Option<int>): (c: int)
    ensures code.Some? ==> c == code.value
    ensures code.None? ==> c == -1
  {
    code.GetOr(-1)
  }

  /** The version asked for when none is given. */
  const DefaultVersion: string := "latest"

  /** The binary a child is spawned from: the `binaryPath` option, else what
      `ensureBinary` gives for the requested version or `latest`. */
  function ResolveBinary(binaryPath: Option<string>, version: Option<string>,
                         ensureBinary: string -> Result<string, string>): Result<string, string>
  {
    if binaryPath.Some? then Success(binaryPath.value) else ensureBinary(version.GetOr(DefaultVersion))
  }

  /** Whether `spawn` throws before any child exists: an empty command is
      refused synchronously, so there is no child, no exit and no error
      event, and the caller's promise rejects at once. */
  predicate SpawnThrows(binary: string) {
    binary == ""
  }

  /** One observable step, in the order it happens. */
  datatype Effect =
    | MakeDir(dir: string)
    // the YAML of `ProxyConfig.BuildDocument(config, port, homeDir)` written to `path`
    | WriteConfig(path: string, config: ProxyConfig.Config, port: int)
    | Spawn(binary: string, argv: seq<string>)
    | Report(status: Status)
    | Kill
    | Cleanup(dir: string)

  /** The status events among the effects, in order. */
  function Statuses(effects: seq<Effect>): (s: seq<Status>)
    ensures |s| <= |effects|
    decreases |effects|
  {
    if effects == [] then []
    else (if effects[0].Report? then [effects[0].status] else []) + Statuses(effects[1..])
  }

  lemma StatusesCons(e: Effect, rest: seq<Effect>)
    ensures Statuses([e] + rest) == (if e.Report? then [e.status] else []) + Statuses(rest)
  {
    assert ([e] + rest)[1..] == rest;
  }

  lemma {:induction false} StatusesAppend(a: seq<Effect>, b: seq<Effect>)
    ensures Statuses(a + b) == Statuses(a) + Statuses(b)
    decreases |a|
  {
    if a == [] {
      assert a + b == b;
    } else {
      assert (a + b)[0] == a[0];
      assert (a + b)[1..] == a[1..] + b;
      StatusesAppend(a[1..], b);
    }
  }

  /** The temporary directory `mkdtemp` creates: the system temp root
      joined with the prefix and the random suffix it chooses. */
  function TempDir(tmpRoot: string, prefix: string, suffix: string): string {
    Join(tmpRoot, prefix + suffix)
  }

  const ConfigFileName: string := "config.yaml"

  /** The config file written into a temporary directory. */
  function TempConfigPath(dir: string): string {
    Join(dir, ConfigFileName)
  }

  /** The cleanup removes `dirname(configPath)`: exactly the temporary
      directory the config file was written into, whatever its name. */
  lemma CleanupTargetsTempDir(tmpRoot: string, prefix: string, suffix: string)
    ensures Dirname(TempConfigPath(TempDir(tmpRoot, prefix, suffix))) == TempDir(tmpRoot, prefix, suffix)
  {
    DirnameOfJoin(TempDir(tmpRoot, prefix, suffix), ConfigFileName);
  }
}

=== FILE: readiness.dfy ===
/** Readiness probing of the spawned proxy: the health-check parameters and
    their defaults, the request each probe sends, the status predicate, and
    the bounded retry loop. The network is replaced by an oracle that gives
    the outcome of each probe attempt. */
module Readiness {
  import opened Wrappers
  import opened Text

  /** The HTTP status predicate: the server is listening and dispatching,
      even if the probe itself was refused by application logic. */
  predicate IsReadyStatus(status: int) {
    (200 <= status < 500) || status == 101
  }

  /** Every 2xx, 3xx and 4xx status and a protocol switch count as ready;
      no 5xx status and no other informational status does. */
  lemma ReadyStatusClasses(status: int)
    ensures 200 <= status < 500 ==> IsReadyStatus(status)
    ensures status >= 500 ==> !IsReadyStatus(status)
    ensures status < 200 ==> (IsReadyStatus(status) <==> status == 101)
  {
  }

  /** The outcome of one probe: a response with a status, or an exception
      (connection refused, an aborted or failed request). */
  datatype Probe = Responded(status: int) | Threw

  predicate ProbeReady(p: Probe) {
    p.Responded? && IsReadyStatus(p.status)
  }

  /** The caller's optional health-check options; `None` is an omitted field. */
  datatype HealthCheck = HealthCheck(
    path: Option<string>,
    apiKey: Option<string>,
    intervalMs: Option<int>,
    retries: Option<int>)

  const DefaultPath: string := "/v1/models"
  const DefaultIntervalMs: int := 200
  const DefaultRetries: int := 60

  /** The parameters the probe loop runs with once defaults are applied. */
  datatype HealthParams = HealthParams(path: string, apiKey: Option<string>, intervalMs: int, retries: int)

  /** `config.apiKeys?.[0]`: the first configured key, if any. */
  function FirstKey(apiKeys: Option<seq<string>>): (k: Option<string>)
    ensures k.Some? <==> apiKeys.Some? && |apiKeys.value| > 0
    ensures k.Some? ==> k.value == apiKeys.value[0]
  {
    if apiKeys.Some? && |apiKeys.value| > 0 then Some(apiKeys.value[0]) else None
  }

  /** Defaulting of the health-check options. Each field falls back only
      when it is omitted; the API key falls back to the first configured
      key, so a given empty key is kept (and then sends no headers). */
  function ResolveHealth(health: Option<HealthCheck>, apiKeys: Option<seq<string>>): (p: HealthParams)
    ensures health.None? ==>
      p == HealthParams(DefaultPath, FirstKey(apiKeys), DefaultIntervalMs, DefaultRetries)
    ensures health.Some? ==>
      && p.path == health.value.path.GetOr(DefaultPath)
      && p.intervalMs == health.value.intervalMs.GetOr(DefaultIntervalMs)
      && p.retries == health.value.retries.GetOr(DefaultRetries)
      && (health.value.apiKey.Some? ==> p.apiKey == health.value.apiKey)
      && (health.value.apiKey.None? ==> p.apiKey == FirstKey(apiKeys))
  {
    match health
    case None => HealthParams(DefaultPath, FirstKey(apiKeys), DefaultIntervalMs, DefaultRetries)
    case Some(h) =>
      HealthParams(
        h.path.GetOr(DefaultPath),
        h.apiKey.OrElse(FirstKey(apiKeys)),
        h.intervalMs.GetOr(DefaultIntervalMs),
        h.retries.GetOr(DefaultRetries))
  }

  /** Defaulting is idempotent: giving every resolved parameter back
      explicitly, with the same configured keys, resolves to the same
      parameters. */
  lemma ResolveHealthFixedPoint(health: Option<HealthCheck>, apiKeys: Option<seq<string>>)
    ensures var p := ResolveHealth(health, apiKeys);
      ResolveHealth(Some(HealthCheck(Some(p.path), p.apiKey, Some(p.intervalMs), Some(p.retries))), apiKeys) == p
  {
  }

  const Loopback: string := "http://127.0.0.1:"

  /** One probe request: a GET of `url` with these headers (None: none sent). */
  datatype Request = Request(url: string, headers: Option<map<string, string>>)

  /** A key is sent only when it is truthy, that is, a non-empty string. */
  predicate Truthy(key: Option<string>) {
    key.Some? && key.value != ""
  }

  /** The probe request: the loopback URL of the port followed by the path,
      and, for a truthy key, the same key as a bearer token and as an
      `x-api-key` header. */
  function ProbeRequest(port: int, params: HealthParams): (r: Request)
    ensures StartsWith(r.url, Loopback + IntToString(port))
    ensures r.url[|Loopback + IntToString(port)|..] == params.path
    ensures r.headers.Some? <==> Truthy(params.apiKey)
    ensures r.headers.Some? ==>
      && r.headers.value.Keys == {"Authorization", "x-api-key"}
      && r.headers.value["x-api-key"] == params.apiKey.value
      && r.headers.value["Authorization"] == "Bearer " + params.apiKey.value
  {
    var base := Loopback + IntToString(port);
    assert (base + params.path)[|base|..] == params.path;
    Request(
      base + params.path,
      if Truthy(params.apiKey)
      then Some(map["Authorization" := "Bearer " + params.apiKey.value, "x-api-key" := params.apiKey.value])
      else None)
  }

  /** The request determines the path and whether a key was sent, and the
      key itself when one was: two parameter sets that probe the same port
      with the same request agree on the path and on the truthy key. */
  lemma ProbeRequestDeterminesParams(port: int, a: HealthParams, b: HealthParams)
    requires ProbeRequest(port, a) == ProbeRequest(port, b)
    ensures a.path == b.path
    ensures Truthy(a.apiKey) <==> Truthy(b.apiKey)
    ensures Truthy(a.apiKey) ==> a.apiKey == b.apiKey
  {
    var ra := ProbeRequest(port, a);
    if Truthy(a.apiKey) {
      assert ra.headers.value["x-api-key"] == a.apiKey.value;
    }
  }

  /** The settlement of the readiness wait: ready after some attempts, or
      rejected because every attempt failed. `waits` counts the delays the
      loop slept through. */
  datatype Readiness = Ready(attempts: nat, waits: nat) | NotReady(attempts: nat, waits: nat)

  function Max0(n: int): nat {
    if n < 0 then 0 else n
  }

  /** The retry loop from attempt `i` on: probe, return at the first ready
      status, and otherwise sleep one interval and try again, until `retries`
      attempts have been made. A non-ready status and an exception are
      treated alike. */
  function PollFrom(retries: int, probe: nat -> Probe, i: nat): (r: Readiness)
    requires i <= Max0(retries)
    ensures r.Ready? <==> exists j: nat :: i <= j < retries && ProbeReady(probe(j))
    ensures r.Ready? ==>
      && i < r.attempts <= retries
      && ProbeReady(probe(r.attempts - 1))
      && (forall j: nat :: i <= j < r.attempts - 1 ==> !ProbeReady(probe(j)))
      && r.waits == r.attempts - 1 - i
    ensures r.NotReady? ==>
      && r.attempts == Max0(retries)
      && r.waits == r.attempts - i
    decreases Max0(retries) - i
  {
    if i >= retries then NotReady(i, 0)
    else if ProbeReady(probe(i)) then Ready(i + 1, 0)
    else
      match PollFrom(retries, probe, i + 1)
      case Ready(n, w) => Ready(n, w + 1)
      case NotReady(n, w) => NotReady(n, w + 1)
  }

  /** `waitForReady` with the timer left out: at most `retries` probes,
      returning at the first ready one; every failed probe, the last one
      included, is followed by a delay; exhausting the attempts rejects, and
      a non-positive `retries` rejects without probing. */
  function WaitForReady(retries: int, probe: nat -> Probe): (r: Readiness)
    ensures r.Ready? <==> exists j: nat :: j < retries && ProbeReady(probe(j))
    ensures r.Ready? ==>
      && 0 < r.attempts <= retries
      && ProbeReady(probe(r.attempts - 1))
      && (forall j: nat :: j < r.attempts - 1 ==> !ProbeReady(probe(j)))
      && r.waits == r.attempts - 1
    ensures r.NotReady? ==> r.attempts == Max0(retries) && r.waits == r.attempts
  {
    PollFrom(retries, probe, 0)
  }

  /** A probe target that never answers with a ready status makes the wait
      reject after exactly `retries` attempts and as many delays, whatever
      the failures were. */
  lemma NeverReadyExhausts(retries: nat, probe: nat -> Probe)
    requires forall j: nat :: j < retries ==> !ProbeReady(probe(j))
    ensures WaitForReady(retries, probe) == NotReady(retries, retries)
  {
  }

  /** Only the attempts within the retry bound matter: two probe oracles
      that agree on every attempt from `i` up to `retries` give the same
      wait from `i`, whatever they answer beyond it. */
  lemma {:induction false} PollDependsOnMadeAttempts(retries: int, p: nat -> Probe, q: nat -> Probe, i: nat)
    requires i <= Max0(retries)
    requires forall j: nat :: i <= j < retries ==> p(j) == q(j)
    ensures PollFrom(retries, p, i) == PollFrom(retries, q, i)
    decreases Max0(retries) - i
  {
    if i < retries && !ProbeReady(p(i)) {
      PollDependsOnMadeAttempts(retries, p, q, i + 1);
    }
  }
}

=== FILE: runner.dfy ===
/** `startProxy` and the `stop` it returns, as a function from the options
    and the outcomes of the outside world to the effects performed and the
    settled result. */
module Runner {
  import opened Wrappers
  import opened Text
  import opened Paths
  import opened Process
  import ProxyConfig
  import Readiness
  import Ports

  /** The options of `startProxy` that decide its behaviour. The log
      consumer only matters to the line splitter, and the environment only
      to the spawned child. */
  datatype StartOptions = StartOptions(
    version: Option<string>,
    config: ProxyConfig.Config,
    binaryPath: Option<string>,
    port: Option<int>,
    healthCheck: Option<Readiness.HealthCheck>)

  /** The outside world, as far as a start depends on it. */
  datatype Host = Host(
    // whether a port can be bound
    available: int -> bool,
    // what listening on port 0 gives
    listen: Ports.Listen,
    // the system temp root, and the suffix `mkdtemp` picks
    tmpRoot: string,
    tempSuffix: string,
    homeDir: string,
    // `ensureBinary(version)`: the binary's path, or why there is none
    ensureBinary: string -> Result<string, string>,
    // the outcome of each attempt at sending a readiness probe request
    probe: Readiness.Request -> nat -> Readiness.Probe)

  /** Which of the two raced promises settles first. */
  datatype Race = ReadinessFirst | ProcessFirst

  const TempPrefix: string := "cliproxyapi-"

  datatype RunningProxy = RunningProxy(url: string, port: int, configPath: string)

  datatype StartError =
    | PortUnavailable(portError: Ports.PortError)
    | BinaryUnavailable(reason: string)
    | ExitedBeforeReady(code: int)
    | SpawnFailed
    | SpawnThrew
    | NotReadyInTime

  datatype Started = Started(effects: seq<Effect>, result: Result<RunningProxy, StartError>)

  /** The port the caller asked for: the start option, else the config's. */
  function RequestedPort(opts: StartOptions): Option<int> {
    opts.port.OrElse(opts.config.port)
  }

  function ProxyUrl(port: int): string {
    Readiness.Loopback + IntToString(port)
  }

  /** True when no effect of the sequence kills or cleans up. */
  predicate NoTeardown(effects: seq<Effect>) {
    forall i :: 0 <= i < |effects| ==> !effects[i].Cleanup? && !effects[i].Kill?
  }

  /** Where the config is written: `config.yaml` in the temporary directory
      `mkdtemp` creates under the system temp root. */
  function ConfigPathFor(host: Host): string {
    TempConfigPath(TempDir(host.tmpRoot, TempPrefix, host.tempSuffix))
  }

  /** The probe outcomes a start waits on: every attempt sends the request
      for the allocated port with the resolved health-check path and key. */
  function ProbesFor(opts: StartOptions, host: Host, port: int): nat -> Readiness.Probe {
    host.probe(Readiness.ProbeRequest(port, Readiness.ResolveHealth(opts.healthCheck, opts.config.apiKeys)))
  }

  /** `startProxy(options)`: allocate a port, write the config into a fresh
      temporary directory, find the binary, then launch. */
  function StartProxy(opts: StartOptions, host: Host, exit: ExitEvent, race: Race): (s: Started)
    // nothing happens when no port can be had
    ensures Ports.FindOpenPort(RequestedPort(opts), host.available, host.listen).Failure? ==>
      s == Started([], Failure(PortUnavailable(Ports.FindOpenPort(RequestedPort(opts), host.available, host.listen).error)))
    // with a port, the config is written first, for that port, into the temporary directory
    ensures Ports.FindOpenPort(RequestedPort(opts), host.available, host.listen).Success? ==>
      && |s.effects| >= 1
      && s.effects[0] == WriteConfig(ConfigPathFor(host), opts.config,
                                     Ports.FindOpenPort(RequestedPort(opts), host.available, host.listen).value)
    // a missing binary leaves only the written config behind, and fails the start with its reason
    ensures s.result.Failure? && s.result.error.BinaryUnavailable? ==>
      |s.effects| == 1 && s.effects[0].WriteConfig? && ResolveBinary(opts.binaryPath, opts.version, host.ensureBinary).Failure?
    ensures Ports.FindOpenPort(RequestedPort(opts), host.available, host.listen).Success? && ResolveBinary(opts.binaryPath, opts.version, host.ensureBinary).Failure? ==>
      s == Started([WriteConfig(ConfigPathFor(host), opts.config,
                                Ports.FindOpenPort(RequestedPort(opts), host.available, host.listen).value)],
                   Failure(BinaryUnavailable(ResolveBinary(opts.binaryPath, opts.version, host.ensureBinary).error)))
    // with a binary, everything after the write is the launch, which waits on probes of the allocated port
    ensures Ports.FindOpenPort(RequestedPort(opts), host.available, host.listen).Success? && ResolveBinary(opts.binaryPath, opts.version, host.ensureBinary).Success? ==>
      var port := Ports.FindOpenPort(RequestedPort(opts), host.available, host.listen).value;
      var retries := Readiness.ResolveHealth(opts.healthCheck, opts.config.apiKeys).retries;
      var launched := Launch(port, ConfigPathFor(host), ResolveBinary(opts.binaryPath, opts.version, host.ensureBinary).value,
                             Readiness.WaitForReady(retries, ProbesFor(opts, host, port)).Ready?, exit, race);
      s.effects[1..] == launched.effects && s.result == launched.result
    // with a binary, `starting` is reported; a binary `spawn` accepts is spawned on the written config,
    // and one it refuses rejects the start at once
    ensures Ports.FindOpenPort(RequestedPort(opts), host.available, host.listen).Success? && ResolveBinary(opts.binaryPath, opts.version, host.ensureBinary).Success? ==>
      |s.effects| >= 2 && s.effects[1] == Report(Starting)
    ensures Ports.FindOpenPort(RequestedPort(opts), host.available, host.listen).Success? && ResolveBinary(opts.binaryPath, opts.version, host.ensureBinary).Success? &&
            !SpawnThrows(ResolveBinary(opts.binaryPath, opts.version, host.ensureBinary).value) ==>
      |s.effects| >= 3 && s.effects[2] == Spawn(ResolveBinary(opts.binaryPath, opts.version, host.ensureBinary).value, ProxyArgv(ConfigPathFor(host)))
    ensures Ports.FindOpenPort(RequestedPort(opts), host.available, host.listen).Success? && ResolveBinary(opts.binaryPath, opts.version, host.ensureBinary).Success? &&
            SpawnThrows(ResolveBinary(opts.binaryPath, opts.version, host.ensureBinary).value) ==>
      s == Started([WriteConfig(ConfigPathFor(host), opts.config,
                                Ports.FindOpenPort(RequestedPort(opts), host.available, host.listen).value),
                    Report(Starting)], Failure(SpawnThrew))
    // a start never kills or cleans up, on any path
    ensures NoTeardown(s.effects)
    // `starting` is the first event reported, and a resolved start reported `ready` after it
    ensures Statuses(s.effects) == [] || Statuses(s.effects)[0] == Starting
    ensures s.result.Success? ==>
      && Statuses(s.effects) == [Starting, Ready]
      && Ports.FindOpenPort(RequestedPort(opts), host.available, host.listen).Success?
      && s.result.value == RunningProxy(ProxyUrl(s.result.value.port),
                                        Ports.FindOpenPort(RequestedPort(opts), host.available, host.listen).value,
                                        ConfigPathFor(host))
  {
    match Ports.FindOpenPort(RequestedPort(opts), host.available, host.listen)
    case Failure(e) => Started([], Failure(PortUnavailable(e)))
    case Success(port) => WithPort(opts, host, port, exit, race)
  }

  /** A start once `port` is allocated: write the config for it, find the
      binary, and launch. */
  function WithPort(opts: StartOptions, host: Host, port: int, exit: ExitEvent, race: Race): (s: Started)
    ensures |s.effects| >= 1 && s.effects[0] == WriteConfig(ConfigPathFor(host), opts.config, port)
    ensures s.result.Failure? && s.result.error.BinaryUnavailable? ==>
      |s.effects| == 1 && ResolveBinary(opts.binaryPath, opts.version, host.ensureBinary).Failure?
    ensures ResolveBinary(opts.binaryPath, opts.version, host.ensureBinary).Failure? ==>
      s == Started([WriteConfig(ConfigPathFor(host), opts.config, port)], Failure(BinaryUnavailable(ResolveBinary(opts.binaryPath, opts.version, host.ensureBinary).error)))
    ensures ResolveBinary(opts.binaryPath, opts.version, host.ensureBinary).Success? ==>
      var retries := Readiness.ResolveHealth(opts.healthCheck, opts.config.apiKeys).retries;
      var launched := Launch(port, ConfigPathFor(host), ResolveBinary(opts.binaryPath, opts.version, host.ensureBinary).value,
                             Readiness.WaitForReady(retries, ProbesFor(opts, host, port)).Ready?, exit, race);
      s.effects[1..] == launched.effects && s.result == launched.result
    ensures ResolveBinary(opts.binaryPath, opts.version, host.ensureBinary).Success? ==> |s.effects| >= 2 && s.effects[1] == Report(Starting)
    ensures ResolveBinary(opts.binaryPath, opts.version, host.ensureBinary).Success? && !SpawnThrows(ResolveBinary(opts.binaryPath, opts.version, host.ensureBinary).value) ==>
      |s.effects| >= 3 && s.effects[2] == Spawn(ResolveBinary(opts.binaryPath, opts.version, host.ensureBinary).value, ProxyArgv(ConfigPathFor(host)))
    ensures ResolveBinary(opts.binaryPath, opts.version, host.ensureBinary).Success? && SpawnThrows(ResolveBinary(opts.binaryPath, opts.version, host.ensureBinary).value) ==>
      s == Started([WriteConfig(ConfigPathFor(host), opts.config, port), Report(Starting)], Failure(SpawnThrew))
    ensures NoTeardown(s.effects)
    ensures Statuses(s.effects) == [] || Statuses(s.effects)[0] == Starting
    ensures s.result.Success? ==>
      && Statuses(s.effects) == [Starting, Ready]
      && s.result.value == RunningProxy(ProxyUrl(port), port, ConfigPathFor(host))
  {
    var configPath := ConfigPathFor(host);
    var write := WriteConfig(configPath, opts.config, port);
    match ResolveBinary(opts.binaryPath, opts.version, host.ensureBinary)
    case Failure(reason) => Started([write], Failure(BinaryUnavailable(reason)))
    case Success(path) =>
      var params := Readiness.ResolveHealth(opts.healthCheck, opts.config.apiKeys);
      var ready := Readiness.WaitForReady(params.retries, host.probe(Readiness.ProbeRequest(port, params))).Ready?;
      var launched := Launch(port, configPath, path, ready, exit, race);
      StatusesCons(write, launched.effects);
      assert ([write] + launched.effects)[1..] == launched.effects;
      assert SpawnThrows(path) ==> [write] + launched.effects == [write, Report(Starting)];
      Started([write] + launched.effects, launched.result)
  }

  /** The command line the proxy is spawned with. */
  function ProxyArgv(configPath: string): seq<string> {
    ["--config", configPath]
  }

  /** Report `starting`, then spawn the proxy and settle the race; a binary
      `spawn` refuses rejects right after `starting`, with no child to wait
      for. */
  function Launch(port: int, configPath: string, binary: string, ready: bool, exit: ExitEvent, race: Race)
    : (s: Started)
    ensures |s.effects| >= 1 && s.effects[0] == Report(Starting)
    ensures SpawnThrows(binary) ==> s == Started([Report(Starting)], Failure(SpawnThrew))
    ensures !SpawnThrows(binary) ==>
      && |s.effects| >= 2
      && s.effects[1] == Spawn(binary, ProxyArgv(configPath))
      && s.effects[2..] == Settle(port, configPath, ready, exit, race).effects
      && s.result == Settle(port, configPath, ready, exit, race).result
    ensures NoTeardown(s.effects)
    ensures Statuses(s.effects)
         == [Starting] + (if SpawnThrows(binary) then [] else Statuses(Settle(port, configPath, ready, exit, race).effects))
    ensures s.result.Success? <==> !SpawnThrows(binary) && race == ReadinessFirst && ready
    ensures s.result.Success? ==>
      Statuses(s.effects) == [Starting, Ready] && s.result.value == RunningProxy(ProxyUrl(port), port, configPath)
  {
    if SpawnThrows(binary) then
      StatusesCons(Report(Starting), []);
      Started([Report(Starting)], Failure(SpawnThrew))
    else
      var settled := Settle(port, configPath, ready, exit, race);
      StatusesCons(Spawn(binary, ProxyArgv(configPath)), settled.effects);
      StatusesCons(Report(Starting), [Spawn(binary, ProxyArgv(configPath))] + settled.effects);
      assert ([Report(Starting)] + ([Spawn(binary, ProxyArgv(configPath))] + settled.effects))[2..] == settled.effects;
      Started([Report(Starting)] + ([Spawn(binary, ProxyArgv(configPath))] + settled.effects), settled.result)
  }

  /** How the race settles: the child's exit first reports `exited` with
      its code and rejects, a spawn error rejects silently, and readiness
      first reports `ready` and resolves, or rejects silently when the
      probes ran out. */
  function Settle(port: int, configPath: string, ready: bool, exit: ExitEvent, race: Race): (s: Started)
    ensures s.result.Success? <==> race == ReadinessFirst && ready
    ensures s.result.Success? ==> s == Started([Report(Ready)], Success(RunningProxy(ProxyUrl(port), port, configPath)))
    ensures race == ProcessFirst && exit.Exit? ==>
      s == Started([Report(Exited(ExitCode(exit.code)))], Failure(ExitedBeforeReady(ExitCode(exit.code))))
    ensures race == ProcessFirst && exit.SpawnError? ==> s == Started([], Failure(SpawnFailed))
    ensures race == ReadinessFirst && !ready ==> s == Started([], Failure(NotReadyInTime))
  {
    match race
    case ProcessFirst =>
      (match exit
       case Exit(code) => Started([Report(Exited(ExitCode(code)))], Failure(ExitedBeforeReady(ExitCode(code))))
       case SpawnError => Started([], Failure(SpawnFailed)))
    case ReadinessFirst =>
      if ready then Started([Report(Ready)], Success(RunningProxy(ProxyUrl(port), port, configPath)))
      else Started([], Failure(NotReadyInTime))
  }

  /** `stop()`: kill the child, report `exited` with the code its exit
      promise settles with (-1 when it rejects), and remove the config's
      directory. */
  function Stop(proxy: RunningProxy, exit: ExitEvent): (effects: seq<Effect>)
    ensures |effects| == 3 && effects[0] == Kill && effects[2] == Cleanup(Dirname(proxy.configPath))
    ensures Statuses(effects) == [Exited(if exit.Exit? then ExitCode(exit.code) else -1)]
  {
    var code := match exit case Exit(c) => ExitCode(c) case SpawnError => -1;
    var last := [Cleanup(Dirname(proxy.configPath))];
    StatusesCons(Cleanup(Dirname(proxy.configPath)), []);
    StatusesCons(Report(Exited(code)), last);
    StatusesCons(Kill, [Report(Exited(code))] + last);
    [Kill] + ([Report(Exited(code))] + last)
  }

  /** The whole life of a proxy that became ready: the events are
      `starting`, `ready` and one `exited`, the proxy is reached at the
      loopback URL of its port, and stopping removes exactly the temporary
      directory the start created. */
  lemma StartThenStop(opts: StartOptions, host: Host, exit: ExitEvent)
    requires StartProxy(opts, host, exit, ReadinessFirst).result.Success?
    ensures var s := StartProxy(opts, host, exit, ReadinessFirst);
      var proxy := s.result.value;
      && Statuses(s.effects + Stop(proxy, exit)) == [Starting, Ready, Exited(if exit.Exit? then ExitCode(exit.code) else -1)]
      && proxy.url == Readiness.Loopback + IntToString(proxy.port)
      && Stop(proxy, exit)[2] == Cleanup(TempDir(host.tmpRoot, TempPrefix, host.tempSuffix))
  {
    var s := StartProxy(opts, host, exit, ReadinessFirst);
    StatusesAppend(s.effects, Stop(s.result.value, exit));
    CleanupTargetsTempDir(host.tmpRoot, TempPrefix, host.tempSuffix);
  }

  /** A start succeeds exactly when readiness wins the race and one of the
      first `retries` probes of the allocated port answers with a ready
      status. */
  lemma StartSucceedsIffReady(opts: StartOptions, host: Host, exit: ExitEvent, race: Race)
    requires Ports.FindOpenPort(RequestedPort(opts), host.available, host.listen).Success?
    requires opts.binaryPath.Some? || host.ensureBinary(opts.version.GetOr(DefaultVersion)).Success?
    ensures var retries := Readiness.ResolveHealth(opts.healthCheck, opts.config.apiKeys).retries;
      var port := Ports.FindOpenPort(RequestedPort(opts), host.available, host.listen).value;
      StartProxy(opts, host, exit, race).result.Success?
      <==> && !SpawnThrows(ResolveBinary(opts.binaryPath, opts.version, host.ensureBinary).value)
           && race == ReadinessFirst
           && exists j: nat :: j < retries && Readiness.ProbeReady(ProbesFor(opts, host, port)(j))
  {
  }

  /** When the child exits first, `exited` follows `starting` with the
      code, or -1 for a signal, and the temporary config stays behind. A
      binary `spawn` refuses has no child: only `starting` is reported. */
  lemma ExitFirstReportsCode(opts: StartOptions, host: Host, code: Option<int>)
    requires Ports.FindOpenPort(RequestedPort(opts), host.available, host.listen).Success?
    requires opts.binaryPath.Some? || host.ensureBinary(opts.version.GetOr(DefaultVersion)).Success?
    ensures var s := StartProxy(opts, host, Exit(code), ProcessFirst);
      !SpawnThrows(ResolveBinary(opts.binaryPath, opts.version, host.ensureBinary).value) ==>
        && Statuses(s.effects) == [Starting, Exited(ExitCode(code))]
        && s.result == Failure(ExitedBeforeReady(ExitCode(code)))
    // a binary `spawn` refuses never gets a child to exit
    ensures var s := StartProxy(opts, host, Exit(code), ProcessFirst);
      SpawnThrows(ResolveBinary(opts.binaryPath, opts.version, host.ensureBinary).value) ==> Statuses(s.effects) == [Starting] && s.result == Failure(SpawnThrew)
  {
    var c := ExitCode(code);
    StatusesCons(Report(Exited(c)), []);
  }

  /** When the probes run out first, the start rejects with only `starting`
      reported; the child is neither killed nor cleaned up after. A binary
      `spawn` refuses rejects before any probe, also after only `starting`. */
  lemma ReadinessFailureReportsOnlyStarting(opts: StartOptions, host: Host, exit: ExitEvent)
    requires Ports.FindOpenPort(RequestedPort(opts), host.available, host.listen).Success?
    requires opts.binaryPath.Some? || host.ensureBinary(opts.version.GetOr(DefaultVersion)).Success?
    requires var retries := Readiness.ResolveHealth(opts.healthCheck, opts.config.apiKeys).retries;
      var port := Ports.FindOpenPort(RequestedPort(opts), host.available, host.listen).value;
      forall j: nat :: j < retries ==> !Readiness.ProbeReady(ProbesFor(opts, host, port)(j))
    ensures var s := StartProxy(opts, host, exit, ReadinessFirst);
      && Statuses(s.effects) == [Starting]
      && s.result == if SpawnThrows(ResolveBinary(opts.binaryPath, opts.version, host.ensureBinary).value) then Failure(SpawnThrew) else Failure(NotReadyInTime)
  {
    var retries := Readiness.ResolveHealth(opts.healthCheck, opts.config.apiKeys).retries;
    var port := Ports.FindOpenPort(RequestedPort(opts), host.available, host.listen).value;
    assert !Readiness.WaitForReady(retries, ProbesFor(opts, host, port)).Ready?;
  }

  /** A given `binaryPath` of `""` is kept, and `spawn` refuses it: the start
      rejects after `starting` whatever the race and the probes would do. */
  lemma EmptyBinaryPathRejects(opts: StartOptions, host: Host, exit: ExitEvent, race: Race)
    requires Ports.FindOpenPort(RequestedPort(opts), host.available, host.listen).Success?
    requires opts.binaryPath == Some("")
    ensures var s := StartProxy(opts, host, exit, race);
      && Statuses(s.effects) == [Starting]
      && s.result == Failure(SpawnThrew)
      && forall i :: 0 <= i < |s.effects| ==> !s.effects[i].Spawn?
  {
  }
}

=== FILE: seqs.dfy ===
/** Facts about sequences shared by the other modules. */
module Seqs {
  /** Concatenation is associative; stated generically so that a proof about
      long element types need not rediscover it. */
  lemma AppendAssoc<T>(x: seq<T>, y: seq<T>, z: seq<T>)
    ensures (x + y) + z == x + (y + z)
  {
  }
}

=== FILE: text.dfy ===
/** The JavaScript string primitives the core relies on: `trimEnd`, `trim`,
    `indexOf`, `lastIndexOf` and the decimal rendering of integers inside
    template literals. */
module Text {

  /** The characters `String.prototype.trimEnd` and `trim` remove: the
      WhiteSpace and LineTerminator code points of ECMAScript (section 12.2
      and 12.3 of ECMA-262), which include the Unicode space separators. */
  predicate IsSpace(c: char) {
    || c == '\t' || c == '\n' || c == '\U{000B}' || c == '\U{000C}' || c == '\r'
    || c == ' ' || c == '\U{00A0}' || c == '\U{1680}'
    || ('\U{2000}' <= c <= '\U{200A}')
    || c == '\U{2028}' || c == '\U{2029}' || c == '\U{202F}' || c == '\U{205F}'
    || c == '\U{3000}' || c == '\U{FEFF}'
  }

  predicate AllSpace(s: string) {
    forall i :: 0 <= i < |s| ==> IsSpace(s[i])
  }

  /** `s.trimEnd()`: the longest prefix of `s` that does not end in white
      space; everything cut off is white space. */
  function TrimEnd(s: string): (r: string)
    ensures r <= s
    ensures AllSpace(s[|r|..])
    ensures r == [] || !IsSpace(r[|r| - 1])
    decreases |s|
  {
    if s == [] || !IsSpace(s[|s| - 1]) then s
    else
      var init := s[..|s| - 1];
      var r := TrimEnd(init);
      assert s[|r|..] == init[|r|..] + [s[|s| - 1]];
      r
  }

  /** `s.trimStart()`: the longest suffix of `s` that does not start with
      white space; everything cut off is white space. */
  function TrimStart(s: string): (r: string)
    ensures |r| <= |s| && r == s[|s| - |r|..]
    ensures AllSpace(s[..|s| - |r|])
    ensures r == [] || !IsSpace(r[0])
    decreases |s|
  {
    if s == [] || !IsSpace(s[0]) then s
    else
      var r := TrimStart(s[1..]);
      assert s[1..][|s| - 1 - |r|..] == s[|s| - |r|..];
      assert s[..|s| - |r|] == [s[0]] + s[1..][..|s| - 1 - |r|];
      r
  }

  /** `s.trim()`. */
  function Trim(s: string): string {
    TrimStart(TrimEnd(s))
  }

  /** `s.trim() === ""` holds exactly for the strings made only of white
      space (the empty string included). */
  lemma TrimEmptyIffAllSpace(s: string)
    ensures Trim(s) == [] <==> AllSpace(s)
  {
    var e := TrimEnd(s);
    if Trim(s) == [] {
      assert AllSpace(e[..|e|]);
      assert |e| == 0;
      assert s[|e|..] == s;
    }
  }

  /** `s.indexOf(c)`: the position of the first `c`, or -1 when there is none. */
  function IndexOf(s: string, c: char): (i: int)
    ensures i == -1 <==> c !in s
    ensures i != -1 ==> 0 <= i < |s| && s[i] == c && c !in s[..i]
  {
    if s == [] then -1
    else if s[0] == c then 0
    else
      var j := IndexOf(s[1..], c);
      assert s[1..][..if j < 0 then 0 else j] == s[1..1 + (if j < 0 then 0 else j)];
      if j == -1 then -1 else j + 1
  }

  /** The first occurrence is where `indexOf` finds it. */
  lemma IndexOfAt(s: string, c: char, i: int)
    requires 0 <= i < |s| && s[i] == c && c !in s[..i]
    ensures IndexOf(s, c) == i
  {
    var j := IndexOf(s, c);
    assert s[..j + 1][j] == s[j];
    assert forall k :: 0 <= k < i ==> s[..i][k] == s[k];
  }

  /** `s.lastIndexOf(c)`: the position of the last `c`, or -1 when there is none. */
  function LastIndexOf(s: string, c: char): (i: int)
    ensures i == -1 <==> c !in s
    ensures i != -1 ==> 0 <= i < |s| && s[i] == c && c !in s[i + 1..]
  {
    if s == [] then -1
    else if s[|s| - 1] == c then |s| - 1
    else
      var j := LastIndexOf(s[..|s| - 1], c);
      assert j != -1 ==> s[j + 1..] == s[..|s| - 1][j + 1..] + [s[|s| - 1]];
      assert j == -1 ==> s == s[..|s| - 1] + [s[|s| - 1]];
      j
  }

  /** A separator followed by a separator-free tail is the last one. */
  lemma LastIndexOfJoin(a: string, c: char, b: string)
    requires c !in b
    ensures LastIndexOf(a + [c] + b, c) == |a|
  {
    var s := a + [c] + b;
    assert s[|a|] == c;
    assert s[|a| + 1..] == b;
  }

  predicate StartsWith(s: string, prefix: string) {
    prefix <= s
  }

  predicate EndsWith(s: string, suffix: string) {
    |suffix| <= |s| && s[|s| - |suffix|..] == suffix
  }

  lemma EndsWithConcat(s: string, t: string)
    ensures EndsWith(s + t, t)
  {
    assert (s + t)[|s|..] == t;
  }

  /** A suffix of `t` is a suffix of `s + t`; and a string at most as long as
      `t` is a suffix of `s + t` only if it is a suffix of `t`. */
  lemma EndsWithInConcat(s: string, t: string, u: string)
    requires |u| <= |t|
    ensures EndsWith(s + t, u) <==> EndsWith(t, u)
  {
    assert (s + t)[|s + t| - |u|..] == t[|t| - |u|..];
  }

  predicate IsDigit(c: char) {
    '0' <= c <= '9'
  }

  function DigitChar(d: nat): (c: char)
    requires d < 10
    ensures IsDigit(c)
  {
    "0123456789"[d]
  }

  function DigitValue(c: char): (d: nat)
    requires IsDigit(c)
    ensures d < 10
  {
    (c as int - '0' as int) as nat
  }

  /** The decimal digits of a natural number, without leading zeros. */
  function NatToString(n: nat): (s: string)
    ensures |s| > 0
    ensures forall i :: 0 <= i < |s| ==> IsDigit(s[i])
    ensures s[0] == '0' ==> n == 0
    decreases n
  {
    if n < 10 then [DigitChar(n)] else NatToString(n / 10) + [DigitChar(n % 10)]
  }

  /** The value of a string of decimal digits. */
  function ParseDigits(s: string): nat
    requires forall i :: 0 <= i < |s| ==> IsDigit(s[i])
    decreases |s|
  {
    if s == [] then 0 else 10 * ParseDigits(s[..|s| - 1]) + DigitValue(s[|s| - 1])
  }

  lemma {:induction false} ParseNatToString(n: nat)
    ensures ParseDigits(NatToString(n)) == n
    decreases n
  {
    var s := NatToString(n);
    if n < 10 {
      assert DigitValue(DigitChar(n)) == n;
    } else {
      ParseNatToString(n / 10);
      assert s[..|s| - 1] == NatToString(n / 10);
      assert DigitValue(DigitChar(n % 10)) == n % 10;
    }
  }

  /** The text an integer-valued JavaScript number renders to in a template
      literal (`${n}`). */
  function IntToString(n: int): (s: string)
    ensures n >= 0 ==> forall i :: 0 <= i < |s| ==> IsDigit(s[i])
    ensures n < 0 ==> |s| > 1 && s[0] == '-' && forall i :: 1 <= i < |s| ==> IsDigit(s[i])
    ensures n >= 0 ==> ParseDigits(s) == n
    ensures n < 0 ==> ParseDigits(s[1..]) == -n
  {
    ParseNatToString(if n >= 0 then n else -n);
    if n >= 0 then NatToString(n) else "-" + NatToString(-n)
  }
}

=== FILE: wrappers.dfy ===
/** Optional values and success/failure results, standing in for JavaScript's
    `undefined` and for promises that resolve or reject. */
module Wrappers {

  /** An optional value: `None` is JavaScript's `undefined` (or `null`, which
      the `??` operator treats the same way). */
  datatype Option<+T> = None | Some(value: T) {

    /** The value, or `default` when absent: the `??` operator. */
    function GetOr(default: T): T {
      match this
      case Some(v) => v
      case None => default
    }

    /** `this ?? other` for two optional operands. */
    function OrElse(other: Option<T>): Option<T> {
      if Some? then this else other
    }
  }

  /** The settlement of an asynchronous operation: resolved with a value or
      rejected with an error. */
  datatype Result<+R, +E> = Success(value: R) | Failure(error: E)
}
